=== FILE: README.md ===
# PIP-Link client core in Dafny

This project models the networking and input core of the PIP-Link desktop
client. PIP-Link streams JPEG video from a server over UDP and sends
keyboard and mouse control back. Each part below is a Dafny module of
immutable datatypes and pure functions, with contracts and lemmas about them.

- `Bytes`: big-endian 16/32-bit integers and bit packing, as used by `struct.pack('!I')`, `int.from_bytes` and `|= 1 << k`.
- `ControlPacket`: the `CTRL` control packet, a 20-byte header plus a 22-byte data section when Ready.
- `ParamsPacket`: the `PRM1` parameter packet, a magic, a length and a JSON payload.
- `KeyboardEncoder`: the 71-entry key table and the 10-byte bitmask of pressed keys. F5 toggles Ready instead of setting a bit.
- `ControlSender`: sensitivity, mouse velocity, the button mask, the Ready toggle, start/stop and one iteration of the 100 Hz send loop.
- `UdpConn`: parsing UDP fragments (frame id, index, total) and reassembling frames from fragments that arrive in any order.
- `TcpConn`: the one-shot TCP handshake and the hooks it fires.
- `NetworkManager`: wiring the handshake to the event bus. It starts the UDP receiver, params receiver and control sender on ports +1/+2/+3, and also covers teardown and statistics.
- `Events`: the publish/subscribe `EventBus` and its event names.
- `ConfigManager`: sectioned settings with defaults, `get` and `set`.
- `TextBox`: the text box's key handling (editing, cursor, length limit).
- `Decimal`: `str(int)` and `int(str)`, which the manager uses to store the server port as text.
- `Config`, `Values`, `Wrappers`: constants, the dynamic values carried by events, and `Option`/`Result`.

Exceptions become `Result`/`Option` values. Clocks, socket outcomes, bind
results, the JSON codec, the float codec and the JPEG decoder become
parameters.

Three behaviours of the code that the model keeps:

- The handshake closes its socket right after connecting. Because of that, the quality and image-adjust commands are never sent once connected (`NetworkManager.NothingSentAfterConnect`).
- `TCPConnection` never calls its `on_disconnected` hook. `NetworkManager.OnTcpDisconnected` is still modelled, but nothing in the model triggers it.
- No heartbeat, bandwidth or packet-loss accounting exists in the code. The manager only reports zero defaults for those keys.

## Model

| member | source | states |
|---|---|---|
| Bytes.BE32RoundTrip | network/control_packet.py:38 | the 4-byte big-endian encoding of any value below 2^32 reads back as that value |
| Bytes.FromBE32RoundTrip | network/control_packet.py:81 | any 4 bytes read big-endian and re-encoded give the same 4 bytes |
| Bytes.BE16RoundTrip | web_conn/udp_conn.py:79-80 | the 2-byte big-endian encoding of any value below 2^16 reads back as that value |
| Bytes.FromBE16RoundTrip | web_conn/udp_conn.py:79-80 | any 2 bytes read big-endian and re-encoded give the same 2 bytes |
| Bytes.PackBitsTest | network/control_sender.py:168-182 | in a byte built by or-ing `1 << k` for each raised flag, bit k is set exactly when flag k is raised |
| Bytes.PackBitsSet | web_conn/keyboard_encoder.py:171 | raising one more flag sets exactly that one additional bit of the packed byte |
| ControlPacket.Encode | network/control_packet.py:18-56 | encoding fails exactly when the sequence number is outside 32 bits or the state outside a byte; a bad sequence number is the error raised first |
| ControlPacket.Decode | network/control_packet.py:59-101 | decoding gives nothing exactly for a packet shorter than 20 bytes or without the CTRL magic |
| ControlPacket.ReadyPacketSize | network/control_packet.py:12-15 | a Ready packet with a 2-byte button mask and a 10-byte keyboard mask is 42 bytes, header plus data section |
| ControlPacket.NotReadyPacketSize | network/control_packet.py:54-56 | a packet in any other state is the 20-byte header alone |
| ControlPacket.HeaderLayout | network/control_packet.py:36-42 | header layout: magic, big-endian sequence number, timestamp, state byte, three zero bytes |
| ControlPacket.DataLayout | network/control_packet.py:44-53 | Ready data section: velocities at 20 and 24, buttons at 28, keyboard at 30, two zero pad bytes |
| ControlPacket.RoundTripReady | network/control_packet.py:36-99 | decoding an encoded Ready packet returns every field that was encoded |
| ControlPacket.RoundTripNotReady | network/control_packet.py:36-93 | decoding an encoded non-Ready packet returns sequence number, timestamp and state, with zero velocities and masks |
| ControlPacket.DecodeDefaults | network/control_packet.py:85-95 | a non-Ready or short Ready packet decodes to zero velocities, 2 zero button bytes and 10 zero keyboard bytes |
| ControlPacket.DecodeIgnoresPad | network/control_packet.py:95-99 | packets that agree on their first 40 bytes decode alike: pad bytes and trailing data are not read |
| ParamsPacket.EncodeFrame | network/params_packet.py:64-70 | framing fails exactly for payloads of 2^32 bytes or more, and otherwise adds an 8-byte header |
| ParamsPacket.Encode | network/params_packet.py:47-70 | the packet starts with PRM1 and ends with the serialised parameters; it fails only for an oversized payload |
| ParamsPacket.DecodeFrame | network/params_packet.py:83-96 | unframing fails exactly for data shorter than 8 bytes or without the PRM1 magic, and never returns more than follows the header |
| ParamsPacket.Decode | network/params_packet.py:83-110 | every header failure ends in no result |
| ParamsPacket.FrameLayout | network/params_packet.py:67-70 | a frame holds the magic, the payload length read big-endian, then the payload |
| ParamsPacket.FrameRoundTrip | network/params_packet.py:64-96 | unframing a framed payload gives back that payload |
| ParamsPacket.TrailingBytesIgnored | network/params_packet.py:93-96 | bytes after the announced payload do not change what is decoded |
| ParamsPacket.ShortPayloadTruncated | network/params_packet.py:96 | a declared length longer than the data yields just the bytes that arrived |
| ParamsPacket.RoundTrip | network/params_packet.py:47-106 | with a JSON parser that inverts the serialiser, decode inverts encode |
| KeyboardEncoder.KeyIndexInTable | web_conn/keyboard_encoder.py:160-162 | every key with an index appears in the key table at that index, and indices stay below 71 |
| KeyboardEncoder.TableInKeyIndex | web_conn/keyboard_encoder.py:14-103 | every key table entry is found again by the lookup |
| KeyboardEncoder.KeyMapInjective | web_conn/keyboard_encoder.py:14-103 | no two keys share a bit index |
| KeyboardEncoder.KeyBitsEmpty | web_conn/keyboard_encoder.py:107 | with nothing pressed the bitmask is ten zero bytes |
| KeyboardEncoder.KeyBitsCorrect | web_conn/keyboard_encoder.py:164-171 | bit i%8 of byte i/8 is set exactly when index i is pressed |
| KeyboardEncoder.LastByteZero | web_conn/keyboard_encoder.py:95-103 | with only table indices pressed, the tenth byte is always zero |
| KeyboardEncoder.KeyBitsAdd | web_conn/keyboard_encoder.py:168-171 | pressing one more index sets exactly that index's bit and changes nothing else |
| KeyboardEncoder.UpdateState | web_conn/keyboard_encoder.py:164-171 | the loop leaves exactly the bits of the pressed set raised |
| KeyboardEncoder.Init | web_conn/keyboard_encoder.py:105-116 | a new encoder has nothing pressed and a zero bitmask |
| KeyboardEncoder.OnPress | web_conn/keyboard_encoder.py:138-150 | F5 only fires the toggle hook; a mapped key is added to the pressed set and the bitmask follows; an unmapped key changes nothing |
| KeyboardEncoder.OnRelease | web_conn/keyboard_encoder.py:152-158 | a mapped key is removed from the pressed set and the bitmask follows; an unmapped key changes nothing |
| KeyboardEncoder.GetState | web_conn/keyboard_encoder.py:173-176 | the reported state is the 10-byte bitmask of the pressed set |
| KeyboardEncoder.RepeatedEventsNoChange | web_conn/keyboard_encoder.py:146-158 | auto-repeated presses and repeated releases are idempotent |
| KeyboardEncoder.F5NeverSetsBit | web_conn/keyboard_encoder.py:141-144 | F5 never enters the pressed set or the bitmask |
| KeyboardEncoder.PressReleaseRestores | web_conn/keyboard_encoder.py:138-158 | pressing and releasing a key that was up restores the encoder |
| KeyboardEncoder.PressCount | web_conn/keyboard_encoder.py:178-181 | a press of a fresh mapped key raises the pressed count by one |
| ControlSender.Init | network/control_sender.py:15-55 | a new sender is Not Ready, stopped, at sequence 0, with default sensitivity |
| ControlSender.SetSensitivity | network/control_sender.py:184-189 | sensitivity always lands in [0.1, 10.0], equals the request inside it and the nearer bound outside it; nothing else changes |
| ControlSender.UpdateMousePosition | network/control_sender.py:121-150 | with a positive time step each velocity is the scaled speed clamped to ±720; otherwise the velocities are kept; the last deltas are recorded |
| ControlSender.UpdateMouseButtons | network/control_sender.py:152-182 | bit k of the first button byte is set exactly when flag k is; bit 7 and the second byte stay zero |
| ControlSender.ToggleState | network/control_sender.py:103-119 | Ready and Not Ready swap, and the new state is published when a bus is attached |
| ControlSender.ToggleTwice | network/control_sender.py:109-119 | toggling twice restores the sender |
| ControlSender.KeyPress | network/control_sender.py:49-50 | F5 toggles the Ready state through the encoder's hook; any other mapped key is only added to the pressed keys |
| ControlSender.KeyRelease | network/control_sender.py:49-50 | a release only removes the key from the pressed keys |
| ControlSender.Start | network/control_sender.py:57-87 | starting a running sender does nothing; otherwise it targets the TCP port + 3 and runs exactly when the socket could be made |
| ControlSender.Stop | network/control_sender.py:89-99 | stopping clears the running flags and closes the socket, and changes nothing else |
| ControlSender.SendStep | network/control_sender.py:191-243 | a stopped sender does nothing; a failed iteration changes nothing; a sent one advances the sequence number and the sent count by one and sleeps for the rest of the interval |
| ControlSender.CurrentPacket | network/control_sender.py:210-218 | encoding the current state fails exactly when the sequence number is 2^32 or more; the state byte, velocities and masks are always in range |
| ControlSender.SendStepPacket | network/control_sender.py:203-221 | the sent packet decodes to the current state, sequence number and timestamp; when Ready, also to both velocities, the buttons and the keyboard bitmask |
| ControlSender.SeqOverflowStalls | network/control_sender.py:211-225 | as written, once the sequence number reaches 2^32 every iteration fails and nothing is sent again |
| ControlSender.SendStepWrapped | network/control_sender.py:223 | with the sequence number wrapping at 2^32, every successful send advances it modulo 2^32 |
| ControlSender.WrappedSendNeverStalls | network/control_sender.py:211-225 | with wrapping, the packet sent at sequence number 2^32 - 1 decodes to that number and the current state, and the next send carries sequence number 0 and succeeds |
| ControlSender.GetStatistics | network/control_sender.py:245-253 | the statistics have exactly the five keys: the state as text, the packets sent, the measured and target rates, and the number of pressed keys |
| ControlSender.StatisticsCountPress | network/control_sender.py:245-253 | pressing a mapped key other than F5 that is up raises the reported pressed count by one |
| ControlSender.StatisticsFollowToggle | network/control_sender.py:245-253 | after a toggle, or an F5 press, the reported state is the other one of Ready and Not Ready |
| ControlSender.StatisticsCountSend | network/control_sender.py:222-253 | the reported packet count rises by one for each iteration that sends and stays put otherwise |
| Events.Subscribe | utils/events.py:10-14 | a subscription appends the callback to its event's list and leaves other events alone |
| Events.Publish | utils/events.py:16-20 | a publish invokes the event's callbacks in subscription order, or none for an unknown event |
| Events.RemoveFirst | utils/events.py:25 | removal drops the first occurrence of the callback and keeps the rest in order |
| Events.Unsubscribe | utils/events.py:22-25 | an unknown event is a no-op; an unregistered callback is an error; otherwise that event's list loses exactly the first registration of the callback (`RemoveFirst`) and every other event's list is unchanged |
| Events.SubscribeThenPublish | utils/events.py:10-20 | after a subscription, publishing that event calls the new callback last, and other events are unaffected |
| Events.SubscribeUnsubscribe | utils/events.py:10-25 | subscribing and then unsubscribing a fresh callback restores what every publish invokes |
| Events.RemoveFirstMultiset | utils/events.py:25 | removal takes away exactly one registration of the callback |
| Events.UnsubscribeOneOfTwo | utils/events.py:22-25 | a callback registered twice is still registered after one unsubscribe |
| UdpConn.ParseFragment | web_conn/udp_conn.py:75-81 | datagrams shorter than 8 bytes are dropped; the rest yield id, index, total and payload |
| UdpConn.FragmentRoundTrip | web_conn/udp_conn.py:78-81 | a fragment encoded and parsed again is the same fragment |
| UdpConn.DatagramRoundTrip | web_conn/udp_conn.py:78-81 | any datagram of 8 bytes or more is the encoding of the fragment parsed from it |
| UdpConn.Init | web_conn/udp_conn.py:12-33 | a new receiver has an empty buffer and zero counters |
| UdpConn.Start | web_conn/udp_conn.py:36-51 | starting is a no-op when already running and otherwise runs exactly when the bind succeeds |
| UdpConn.Stop | web_conn/udp_conn.py:53-60 | stopping only clears the running flag |
| UdpConn.StartIdempotent | web_conn/udp_conn.py:36-51 | once the receiver runs, starting it again changes nothing, whatever the new bind would do |
| UdpConn.StopUndoesStart | web_conn/udp_conn.py:36-60 | stop after start equals stop alone, and start after stop runs exactly when the new bind succeeds |
| UdpConn.Reassemble | web_conn/udp_conn.py:118-137 | reassembly succeeds exactly when every index below the total is present, and gives the fragments concatenated in index order |
| UdpConn.Accept | web_conn/udp_conn.py:83-109 | one fragment is stored and other frames are untouched; a frame whose fragment count reaches its total leaves the buffer; it is emitted when complete, non-empty and decodable |
| UdpConn.Receive | web_conn/udp_conn.py:70-109 | short datagrams are ignored; the rest are accepted as their parsed fragment |
| UdpConn.ReceiveEncoded | web_conn/udp_conn.py:72-109 | receiving an encoded fragment is accepting that fragment |
| UdpConn.DuplicateOverwrites | web_conn/udp_conn.py:91 | a duplicate fragment overwrites the stored payload and does not grow the count |
| UdpConn.ZeroTotalNeverCompletes | web_conn/udp_conn.py:91-94 | a fragment claiming a total of 0 never completes a frame |
| UdpConn.DistinctCard | web_conn/udp_conn.py:94 | distinct indices count as many buffer slots as fragments |
| UdpConn.PartialDelivery | web_conn/udp_conn.py:70-116 | until the last fragment of a frame arrives, nothing is emitted and exactly the fragments seen so far are buffered |
| UdpConn.FullBuffer | web_conn/udp_conn.py:118-135 | a buffer holding exactly indices 0..n-1 reassembles to the payloads in index order |
| UdpConn.AcceptCompletes | web_conn/udp_conn.py:94-109 | a completing fragment removes its frame from the buffer and emits the frame when non-empty and decodable |
| UdpConn.DeliverAllFragments | web_conn/udp_conn.py:68-135 | all n fragments of a new frame, delivered once each in any order, yield exactly that frame, clear its buffer and leave other frames alone |
| TcpConn.Init | web_conn/tcp_conn.py:9-25 | a new connection has no socket and is not connected |
| TcpConn.Close | web_conn/tcp_conn.py:107-116 | closing drops the socket and keeps everything else |
| TcpConn.Cleanup | web_conn/tcp_conn.py:118-121 | cleanup leaves the connection unconnected with no socket |
| TcpConn.Disconnect | web_conn/tcp_conn.py:123-126 | a disconnect leaves the connection unconnected with no socket |
| TcpConn.Handshake | web_conn/tcp_conn.py:41-105 | every handshake ends with the socket closed; it ends connected exactly when the connect and receive succeed and the success hook does not raise; the connecting hook runs first |
| TcpConn.HandshakeOutcome | web_conn/tcp_conn.py:41-105 | with every hook installed, each outcome fires exactly its hook after connecting: success, timeout, refused or error with the message |
| TcpConn.SilentWithoutHooks | web_conn/tcp_conn.py:51-105 | without hooks a handshake reports nothing and still ends connected exactly on success |
| TcpConn.ReplyIgnored | web_conn/tcp_conn.py:68-75 | the server's reply, or a timeout waiting for it, does not change the outcome |
| TcpConn.DisconnectIdempotent | web_conn/tcp_conn.py:123-126 | disconnecting twice is disconnecting once |
| Decimal.ShowNat | network/manager.py:36 | the text of a natural number is a non-empty string of digits without a leading zero |
| Decimal.ParseDigits | network/manager.py:44 | a digit string has a value exactly when it is non-empty and all digits |
| Decimal.Parse | network/manager.py:44 | the text parses exactly when it is an optional sign followed by digits, and the sign fixes the sign of the value |
| Decimal.ParseShowNat | network/manager.py:36-44 | reading back the digits of a natural number gives that number |
| Decimal.ParseShow | network/manager.py:36-44 | the port stored as text reads back as the same integer |
| NetworkManager.Init | network/manager.py:13-31 | a new manager is not connected and has no receivers or sender |
| NetworkManager.OnTcpSuccess | network/manager.py:40-62 | the connected flag is set first; a stored port that does not parse raises before anything starts; otherwise receivers and sender start on the parsed port plus 1, 2 and 3 and CONNECTED is published |
| NetworkManager.Connect | network/manager.py:33-38 | the server address is stored, the port as its decimal text, the handshake's UDP port is port + 1, the handshake socket ends closed, and CONNECTING comes first |
| NetworkManager.PublicationsAppend | network/manager.py:26-31 | the events published for a sequence of hook calls are those of each call, in order |
| NetworkManager.ConnectSucceeds | network/manager.py:33-62 | a successful handshake publishes CONNECTING then CONNECTED and starts the three components on ports +1, +2, +3 of the server port |
| NetworkManager.ConnectFails | network/manager.py:26-31 | a failed handshake publishes CONNECTING then one CONNECTION_ERROR with the reason and starts nothing |
| NetworkManager.SendQuality | network/manager.py:117-121 | the quality command is written exactly when the handshake socket is open |
| NetworkManager.SendImageAdjust | network/manager.py:123-127 | the image command is written exactly when the handshake socket is open |
| NetworkManager.NothingSentAfterConnect | network/manager.py:117-127 | after any connect attempt, neither command is written |
| NetworkManager.CleanupConnections | network/manager.py:105-115 | cleanup drops all three components and keeps the rest |
| NetworkManager.OnTcpDisconnected | network/manager.py:64-75 | a disconnect forces Not Ready, drops the components and publishes DISCONNECTED then the state change to 0 |
| NetworkManager.Disconnect | network/manager.py:98-103 | after a disconnect nothing is connected and no component remains; the Ready state is kept |
| NetworkManager.DisconnectIdempotent | network/manager.py:98-115 | disconnecting twice is disconnecting once |
| NetworkManager.OnFrameReceived | network/manager.py:77-81 | each frame becomes the state's video frame (which the renderer reads), counts once and is published as FRAME_RECEIVED |
| NetworkManager.FramesCounted | network/manager.py:77-81 | after any run of frames the count has grown by their number, the video frame is the last one, and each frame was published once, in order |
| NetworkManager.OnParamsReceived | network/manager.py:83-96 | the parameters are stored; latency changes only for a positive timestamp less than 5 s old, and then becomes that age in ms; PARAMS_RECEIVED is published |
| NetworkManager.ParamsKeepLatencyInRange | network/manager.py:83-96 | the reported latency stays within [0, 5000) ms across parameter and frame callbacks, whatever the timestamp and clock |
| NetworkManager.DefaultStats | network/manager.py:131-147 | the default statistics have exactly the fourteen keys |
| NetworkManager.GetStatistics | network/manager.py:129-157 | the sender's statistics override the receiver's, which override the defaults; the key set is their union |
| NetworkManager.StatisticsWhenIdle | network/manager.py:131-147 | with no components the statistics are the defaults: the frame count and zero losses |
| ConfigManager.DefaultConfig | utils/config_manager.py:27-50 | the default configuration has the five sections and their default values |
| ConfigManager.Load | utils/config_manager.py:14-25 | a file that exists and parses is used as is, and otherwise the defaults |
| ConfigManager.Get | utils/config_manager.py:63-65 | a stored value is returned, and otherwise the caller's default |
| ConfigManager.Set | utils/config_manager.py:67-72 | setting adds the section when missing and the key to it |
| ConfigManager.GetAfterSet | utils/config_manager.py:63-72 | a value read right after it was set is the value set |
| ConfigManager.SetLeavesOthers | utils/config_manager.py:63-72 | setting one entry leaves every other entry readable as before |
| ConfigManager.SetSameIsNoOp | utils/config_manager.py:67-72 | setting an entry to its current value changes nothing |
| ConfigManager.DefaultsReadable | utils/config_manager.py:27-65 | the defaults read back through get, and a missing key gives the caller's default |
| TextBox.Init | ui/components/textbox.py:9-49 | a new box is empty, unfocused, with the cursor at 0 and a limit of 50 characters |
| TextBox.ProcessKeyAction | ui/components/textbox.py:51-93 | backspace and delete remove the character before or at the cursor; arrows move within the text; printable keys insert at the cursor below the limit; a full box ignores typing; the cursor stays in the text |
| TextBox.HandleKey | ui/components/textbox.py:120-184 | an unfocused or disabled box ignores keys; Enter and Esc unfocus; Home and End jump; the key is consumed exactly when the box is active and the key is known; the cursor and the length limit are kept |
| TextBox.InsertThenBackspace | ui/components/textbox.py:56-93 | typing a character and then pressing backspace restores text and cursor |
| TextBox.LeftDeleteIsBackspace | ui/components/textbox.py:56-84 | left then delete edits the text as backspace does |
| TextBox.RightLeftRestores | ui/components/textbox.py:64-79 | right then left returns the cursor away from the end of the text |
| TextBox.FullBoxIgnoresTyping | ui/components/textbox.py:87-93 | a box at its limit ignores any number of printable keys |
| TextBox.TypingAppends | ui/components/textbox.py:87-93 | typing into an empty box, within the limit, gives exactly the typed characters with the cursor at the end |
| TextBox.HandleKeysInvariant | ui/components/textbox.py:120-184 | over any sequence of key events the cursor stays in the text and the text within the limit |

## Left out

- Sockets, threads, locks, `time.sleep` and the clock are not modelled. Their outcomes are parameters: the bind result, the socket creation, send success, the connect/receive outcome and the clock readings.
- Floating point: `struct.pack('!f'/'!d')` fields are carried as opaque 4/8-byte encodings. Velocities and sensitivity are Dafny `real`, so float rounding is not modelled.
- The JSON serialiser and parser of the params packet are function parameters, and so is `cv2.imdecode` (the `decodes` predicate). The model asks only that the parser invert the serialiser.
- Only the framing of `ParamsReceiver` is modelled (`ParamsPacket`). Its socket loop follows the same pattern as the UDP receiver. network/params_receiver.py is not part of this model.
- The keyboard encoder's `start`/`stop` (web_conn/keyboard_encoder.py:118-136) only create and stop the pynput listener thread. The sender's model keeps a `keyboardRunning` flag for them.
- `UDPReceiver.get_statistics` is called by the manager but not defined in the receiver. The receiver's statistics are a parameter of `NetworkManager.GetStatistics`.
- `get_frame` returns a copy of the last frame. `currentFrame` holds it.
- The 100-packet progress log and every `print` are left out.
- The handshake's asynchronous thread is collapsed into one call, with the connect outcome as an input.
- One clock reading stands for consecutive `time.time()` calls. The manager reads the clock twice in `_on_params_received`, for the update time and again for the latency. The text box reads it for both of its timestamps. So `OnParamsReceived`'s exact relation between `lastUpdateTime` and the latency, and `HandleKey`'s equal timestamps, hold in the model only.
- The exception from a raising `on_connecting` listener is not modelled: event listeners are assumed not to raise. Only the success hook's exception, which the handshake catches, is modelled.
- `ConfigManager.Set`: the `save` that follows every set (file I/O) is not modelled.
- `ConfigManager.Load`: the input `Option<Store>` holds only a JSON object of objects with flat values. Three kinds of file that the code keeps as they are cannot be represented:
  - a file whose top level is not an object (a list or a number): `get` then raises AttributeError;
  - a file with a section value that is not an object, such as `{"connection": 5}`, `"x"` or `null`: `get` on that section raises AttributeError, and `set` into it raises TypeError;
  - a file with an object nested inside a section: `Value` has no map case.
  So `Get` and `Set` never raise in the model.
- `Decimal.Parse` covers a sign followed by ASCII digits. It does not cover the whitespace, underscores or non-ASCII digits Python's `int` also accepts, which `str(port)` never produces.
- The text box's mouse handler, drawing, cursor blink, focus bookkeeping across widgets and the key-repeat timer in `update` are UI, not core logic. `HandleKey` records the held key and timestamps that the timer reads.
- Application state fields that the network manager never writes are left out.
- The socket of `ControlSender.stop` is closed but not reset to `None`. The model keeps only the `socketOpen` flag.
- `NetworkManager.Connect` overwrites earlier components without stopping them, as the code does. A leaked receiver's threads are not modelled.
- The manager imports `network.tcp_conn` and `network.udp_conn`, but those files live under `web_conn/`. The model uses the `web_conn` versions.

## Findings

| source | as written | input that shows it | evidently intended | confidence | as-written member | corrected member |
|---|---|---|---|---|---|---|
| network/control_sender.py:223 | `packet_seq` grows without bound and is packed with `struct.pack('!I')` (network/control_packet.py:38), which raises `struct.error` at 2^32; the exception is caught and printed, `packet_seq` is not advanced, and every later iteration fails the same way | a running sender with `packet_seq == 2^32` (after about 497 days at 100 Hz) | the sequence number wraps modulo 2^32, so the sender keeps sending | not executed | ControlSender.SeqOverflowStalls | ControlSender.SendStepWrapped |

=== FILE: bytes.dfy ===
/** Bytes, big-endian integers and single bits, as the wire formats use them
    (`int.from_bytes(..., 'big')`, `struct.pack('!I')`, `1 << k`). */
module Bytes {

  newtype byte = x: int | 0 <= x < 256

  const TWO16: int := 0x1_0000
  const TWO32: int := 0x1_0000_0000

  /** `n` zero bytes, as Python's `bytes(n)`. */
  function Zeros(n: nat): (r: seq<byte>)
    ensures |r| == n
    ensures forall i :: 0 <= i < n ==> r[i] == 0
  {
    seq(n, _ => 0)
  }

  /** `struct.pack('!H', x)`: two bytes, most significant first. */
  function BE16(x: int): (r: seq<byte>)
    requires 0 <= x < TWO16
    ensures |r| == 2
  {
    [(x / 0x100) as byte, (x % 0x100) as byte]
  }

  /** `int.from_bytes(b, 'big')` for two bytes. */
  function FromBE16(b: seq<byte>): (r: int)
    requires |b| == 2
    ensures 0 <= r < TWO16
  {
    b[0] as int * 0x100 + b[1] as int
  }

  /** `struct.pack('!I', x)`: four bytes, most significant first. */
  function BE32(x: int): (r: seq<byte>)
    requires 0 <= x < TWO32
    ensures |r| == 4
  {
    BE16(x / TWO16) + BE16(x % TWO16)
  }

  /** `int.from_bytes(b, 'big')` / `struct.unpack('!I', b)` for four bytes. */
  function FromBE32(b: seq<byte>): (r: int)
    requires |b| == 4
    ensures 0 <= r < TWO32
  {
    FromBE16(b[..2]) * TWO16 + FromBE16(b[2..])
  }

  lemma BE16RoundTrip(x: int)
    requires 0 <= x < TWO16
    ensures FromBE16(BE16(x)) == x
  {
  }

  lemma FromBE16RoundTrip(b: seq<byte>)
    requires |b| == 2
    ensures BE16(FromBE16(b)) == b
  {
  }

  lemma BE32RoundTrip(x: int)
    requires 0 <= x < TWO32
    ensures FromBE32(BE32(x)) == x
  {
    var hi, lo := x / TWO16, x % TWO16;
    assert BE32(x)[..2] == BE16(hi) && BE32(x)[2..] == BE16(lo);
    BE16RoundTrip(hi);
    BE16RoundTrip(lo);
  }

  lemma FromBE32RoundTrip(b: seq<byte>)
    requires |b| == 4
    ensures BE32(FromBE32(b)) == b
  {
    var hi, lo := FromBE16(b[..2]), FromBE16(b[2..]);
    var x := FromBE32(b);
    assert x / TWO16 == hi && x % TWO16 == lo;
    FromBE16RoundTrip(b[..2]);
    FromBE16RoundTrip(b[2..]);
    assert b == b[..2] + b[2..];
  }

  /** 2^k, the value of bit k (`1 << k`). */
  function Pow2(k: nat): (r: nat)
    ensures r >= 1
  {
    if k == 0 then 1 else 2 * Pow2(k - 1)
  }

  /** Bit k of b, counting from the least significant bit: `(b >> k) & 1 == 1`. */
  predicate TestBit(b: int, k: nat)
    decreases k
  {
    if k == 0 then b % 2 == 1 else TestBit(b / 2, k - 1)
  }

  /** The number whose bit k is bits[k]; a byte when at most 8 bits are given. */
  function PackBits(bits: seq<bool>): (r: nat)
    ensures r < Pow2(|bits|)
  {
    if bits == [] then 0 else (if bits[0] then 1 else 0) + 2 * PackBits(bits[1..])
  }

  /** `b | (1 << k)`. */
  function SetBit(b: nat, k: nat): nat
  {
    if TestBit(b, k) then b else b + Pow2(k)
  }

  /** Reading bit k of a packed number gives back the k-th flag. */
  lemma {:induction false} PackBitsTest(bits: seq<bool>, k: nat)
    requires k < |bits|
    ensures TestBit(PackBits(bits), k) == bits[k]
  {
    if k > 0 {
      PackBitsTest(bits[1..], k - 1);
    }
  }

  /** Bits at or above the width of a packing are clear. */
  lemma {:induction false} PackBitsHigh(bits: seq<bool>, k: nat)
    requires |bits| <= k
    ensures !TestBit(PackBits(bits), k)
  {
    if bits == [] {
      ZeroHasNoBits(k);
    } else {
      PackBitsHigh(bits[1..], k - 1);
    }
  }

  lemma {:induction false} ZeroHasNoBits(k: nat)
    ensures !TestBit(0, k)
  {
    if k > 0 {
      ZeroHasNoBits(k - 1);
    }
  }

  /** Packing flags that are all false gives 0. */
  lemma {:induction false} PackBitsNone(bits: seq<bool>)
    requires forall k :: 0 <= k < |bits| ==> !bits[k]
    ensures PackBits(bits) == 0
  {
    if bits != [] {
      PackBitsNone(bits[1..]);
    }
  }

  /** Setting bit k of a packing is the packing with flag k raised. */
  lemma {:induction false} PackBitsSet(bits: seq<bool>, k: nat)
    requires k < |bits|
    ensures SetBit(PackBits(bits), k) == PackBits(bits[k := true])
  {
    PackBitsTest(bits, k);
    if k > 0 {
      PackBitsSet(bits[1..], k - 1);
      assert bits[k := true][1..] == bits[1..][k - 1 := true];
    }
  }

  /** The bytes of a packing of at most 8 flags. */
  lemma PackByte(bits: seq<bool>)
    requires |bits| <= 8
    ensures PackBits(bits) < 256
  {
    if |bits| < 8 {
      PowMonotone(|bits|, 8);
    }
  }

  lemma {:induction false} PowMonotone(a: nat, b: nat)
    requires a <= b
    ensures Pow2(a) <= Pow2(b)
  {
    if a < b {
      PowMonotone(a, b - 1);
    }
  }
}

=== FILE: config.dfy ===
/** The global constants the transport layer reads from the configuration class. */
module Config {
  const UDP_PORT_OFFSET: int := 1
  const PARAMS_PORT_OFFSET: int := 2
  const CONTROL_PORT_OFFSET: int := 3

  const TCP_TIMEOUT: int := 3
  const CONTROL_SEND_RATE: int := 100

  const MIN_SENSITIVITY: real := 0.1
  const MAX_SENSITIVITY: real := 10.0
  const DEFAULT_SENSITIVITY: real := 1.0

  const MOUSE_SCALE_FACTOR: real := 0.4

  const MAX_MOUSE_VELOCITY: real := 720.0
  const MIN_MOUSE_VELOCITY: real := -720.0
}

=== FILE: config_manager.dfy ===
/** The configuration store: sections of key/value settings, a default
    configuration, and get/set. Reading and writing the JSON file are left
    out: the parsed file is an input of `Load`, and the save that follows
    every `Set` is not modelled. */
module ConfigManager {
  import opened Wrappers
  import opened Values

  type Section = map<string, Value>
  type Store = map<string, Section>

  const SECTIONS: set<string> := {"connection", "stream", "image", "control", "display"}

  /** `_create_default_config`. */
  function DefaultConfig(): (c: Store)
    ensures c.Keys == SECTIONS
    ensures c["connection"] == map["server_ip" := VStr("192.168.1.100"), "server_port" := VStr("8888")]
    ensures c["stream"] == map["jpeg_quality" := VInt(80), "frame_scale" := VReal(1.0)]
    ensures c["image"] == map["exposure" := VReal(1.0), "contrast" := VReal(1.0), "gamma" := VReal(1.0)]
    ensures c["control"] == map["mouse_sensitivity" := VReal(1.0)]
    ensures c["display"] == map["window_mode" := VStr("windowed"), "resolution_index" := VInt(6)]
  {
    map["connection" := map["server_ip" := VStr("192.168.1.100"), "server_port" := VStr("8888")],
        "stream" := map["jpeg_quality" := VInt(80), "frame_scale" := VReal(1.0)],
        "image" := map["exposure" := VReal(1.0), "contrast" := VReal(1.0), "gamma" := VReal(1.0)],
        "control" := map["mouse_sensitivity" := VReal(1.0)],
        "display" := map["window_mode" := VStr("windowed"), "resolution_index" := VInt(6)]]
  }

  /** `load`: the parsed file when it exists and parses, else the defaults.
      `file` is the parse result of the file's contents, None when the file
      is missing or does not parse. */
  function Load(file: Option<Store>): (c: Store)
    ensures file.Some? ==> c == file.value
    ensures file.None? ==> c == DefaultConfig()
  {
    if file.Some? then file.value else DefaultConfig()
  }

  /** `get`: the value under section and key, else `default`. */
  function Get(c: Store, section: string, key: string, default: Value): (v: Value)
    ensures section in c && key in c[section] ==> v == c[section][key]
    ensures !(section in c && key in c[section]) ==> v == default
  {
    if section in c && key in c[section] then c[section][key] else default
  }

  /** `set`: store the value, creating the section when absent; every call then saves. */
  function Set(c: Store, section: string, key: string, value: Value): (r: Store)
    ensures r.Keys == c.Keys + {section}
    ensures r[section].Keys == (if section in c then c[section].Keys else {}) + {key}
  {
    var sec := if section in c then c[section] else map[];
    c[section := sec[key := value]]
  }

  /** A value read right after it was set is the value set. */
  lemma GetAfterSet(c: Store, section: string, key: string, value: Value, default: Value)
    ensures Get(Set(c, section, key, value), section, key, default) == value
  {
  }

  /** Setting one entry leaves every other entry readable as before. */
  lemma SetLeavesOthers(c: Store, section: string, key: string, value: Value,
                        section': string, key': string, default: Value)
    requires section' != section || key' != key
    ensures Get(Set(c, section, key, value), section', key', default) == Get(c, section', key', default)
  {
  }

  /** Setting an entry to the value it already has changes nothing. */
  lemma SetSameIsNoOp(c: Store, section: string, key: string)
    requires section in c && key in c[section]
    ensures Set(c, section, key, c[section][key]) == c
  {
    assert c[section][key := c[section][key]] == c[section];
  }

  /** Every default setting reads back through `get`, whatever default the caller passes. */
  lemma DefaultsReadable(default: Value)
    ensures Get(DefaultConfig(), "connection", "server_port", default) == VStr("8888")
    ensures Get(DefaultConfig(), "control", "mouse_sensitivity", default) == VReal(1.0)
    ensures Get(DefaultConfig(), "display", "resolution_index", default) == VInt(6)
    ensures Get(DefaultConfig(), "connection", "password", default) == default
  {
  }
}

=== FILE: control_packet.dfy ===
/** The fixed-size `CTRL` control packet: a 20-byte header, followed by a
    22-byte data section only when the state byte is 1 (Ready).
    IEEE float and double fields are carried as their 4- and 8-byte wire
    encodings; producing them from numbers is not part of this model. */
module ControlPacket {
  import opened Bytes
  import opened Wrappers

  /** "CTRL" in ASCII. */
  const MAGIC: seq<byte> := [0x43, 0x54, 0x52, 0x4C]
  const HEADER_SIZE: nat := 20
  const DATA_SIZE: nat := 22
  const TOTAL_SIZE: nat := 42
  const READY: int := 1

  /** The wire encoding of a `struct '!f'` value. */
  type F32 = s: seq<byte> | |s| == 4 witness [0, 0, 0, 0]
  /** The wire encoding of a `struct '!d'` value. */
  type F64 = s: seq<byte> | |s| == 8 witness [0, 0, 0, 0, 0, 0, 0, 0]

  /** The encoding of the float 0.0, the default velocity of a decoded packet. */
  const ZERO_F32: F32 := [0, 0, 0, 0]

  /** `struct.pack` raises `struct.error` when a field does not fit its format. */
  datatype EncodeError = SeqOutOfRange | StateOutOfRange

  /** What `decode` returns: the dictionary of fields. */
  datatype Decoded = Decoded(
    seqNo: int,
    timestamp: F64,
    state: int,
    vx: F32,
    vy: F32,
    buttons: seq<byte>,
    keyboard: seq<byte>)

  function Header(seqNo: int, timestamp: F64, state: int): (r: seq<byte>)
    requires 0 <= seqNo < TWO32 && 0 <= state < 256
    ensures |r| == HEADER_SIZE
  {
    MAGIC + BE32(seqNo) + timestamp + [state as byte] + Zeros(3)
  }

  function Data(vx: F32, vy: F32, buttons: seq<byte>, keyboard: seq<byte>): (r: seq<byte>)
    ensures |r| == 8 + |buttons| + |keyboard| + 2
  {
    vx + vy + buttons + keyboard + Zeros(2)
  }

  /** `ControlPacket.encode`; the timestamp (`time.time()`) is a parameter.
      The button and keyboard masks are appended as given, unchecked. */
  function Encode(state: int, vx: F32, vy: F32, buttons: seq<byte>, keyboard: seq<byte>,
                  seqNo: int, timestamp: F64): (r: Result<seq<byte>, EncodeError>)
    ensures r.Success? <==> 0 <= seqNo < TWO32 && 0 <= state < 256
    ensures r.Failure? && !(0 <= seqNo < TWO32) ==> r.error == SeqOutOfRange
  {
    if !(0 <= seqNo < TWO32) then Failure(SeqOutOfRange)
    else if !(0 <= state < 256) then Failure(StateOutOfRange)
    else if state == READY then Success(Header(seqNo, timestamp, state) + Data(vx, vy, buttons, keyboard))
    else Success(Header(seqNo, timestamp, state))
  }

  /** `ControlPacket.decode`: None for a short packet or a wrong magic;
      the data section is read only for a Ready packet of full size. */
  function Decode(packet: seq<byte>): (r: Option<Decoded>)
    ensures r.None? <==> |packet| < HEADER_SIZE || packet[..4] != MAGIC
  {
    if |packet| < HEADER_SIZE then None
    else if packet[..4] != MAGIC then None
    else
      var seqNo := FromBE32(packet[4..8]);
      var timestamp: F64 := packet[8..16];
      var state := packet[16] as int;
      if state == READY && |packet| >= TOTAL_SIZE then
        Some(Decoded(seqNo, timestamp, state, packet[20..24], packet[24..28], packet[28..30], packet[30..40]))
      else
        Some(Decoded(seqNo, timestamp, state, ZERO_F32, ZERO_F32, Zeros(2), Zeros(10)))
  }

  /** A Ready packet with a 2-byte button mask and a 10-byte keyboard mask is
      exactly TOTAL_SIZE bytes: the header and the whole data section. */
  lemma ReadyPacketSize(vx: F32, vy: F32, buttons: seq<byte>, keyboard: seq<byte>, seqNo: int, timestamp: F64)
    requires 0 <= seqNo < TWO32
    requires |buttons| == 2 && |keyboard| == 10
    ensures Encode(READY, vx, vy, buttons, keyboard, seqNo, timestamp).Success?
    ensures |Encode(READY, vx, vy, buttons, keyboard, seqNo, timestamp).value| == TOTAL_SIZE == HEADER_SIZE + DATA_SIZE
  {
  }

  /** Any state other than Ready puts the header alone on the wire. */
  lemma NotReadyPacketSize(state: int, vx: F32, vy: F32, buttons: seq<byte>, keyboard: seq<byte>, seqNo: int, timestamp: F64)
    requires 0 <= seqNo < TWO32 && 0 <= state < 256 && state != READY
    ensures Encode(state, vx, vy, buttons, keyboard, seqNo, timestamp) == Success(Header(seqNo, timestamp, state))
    ensures |Encode(state, vx, vy, buttons, keyboard, seqNo, timestamp).value| == HEADER_SIZE
  {
  }

  /** Header layout: magic, big-endian sequence number, timestamp, state byte, three zero bytes. */
  lemma HeaderLayout(state: int, vx: F32, vy: F32, buttons: seq<byte>, keyboard: seq<byte>, seqNo: int, timestamp: F64)
    requires 0 <= seqNo < TWO32 && 0 <= state < 256
    ensures var p := Encode(state, vx, vy, buttons, keyboard, seqNo, timestamp).value;
      && |p| >= HEADER_SIZE
      && p[0..4] == MAGIC
      && FromBE32(p[4..8]) == seqNo
      && p[8..16] == timestamp
      && p[16] as int == state
      && p[17] == 0 && p[18] == 0 && p[19] == 0
  {
    var p := Encode(state, vx, vy, buttons, keyboard, seqNo, timestamp).value;
    assert p[..HEADER_SIZE] == Header(seqNo, timestamp, state);
    assert p[4..8] == BE32(seqNo);
    BE32RoundTrip(seqNo);
  }

  /** In a Ready packet the data section holds the velocities, the masks and two zero pad bytes. */
  lemma DataLayout(vx: F32, vy: F32, buttons: seq<byte>, keyboard: seq<byte>, seqNo: int, timestamp: F64)
    requires 0 <= seqNo < TWO32
    requires |buttons| == 2 && |keyboard| == 10
    ensures var p := Encode(READY, vx, vy, buttons, keyboard, seqNo, timestamp).value;
      && p[20..24] == vx && p[24..28] == vy
      && p[28..30] == buttons && p[30..40] == keyboard
      && p[40] == 0 && p[41] == 0
  {
  }

  /** Decoding the encoding of a Ready packet gives back every field. */
  lemma RoundTripReady(vx: F32, vy: F32, buttons: seq<byte>, keyboard: seq<byte>, seqNo: int, timestamp: F64)
    requires 0 <= seqNo < TWO32
    requires |buttons| == 2 && |keyboard| == 10
    ensures Decode(Encode(READY, vx, vy, buttons, keyboard, seqNo, timestamp).value)
         == Some(Decoded(seqNo, timestamp, READY, vx, vy, buttons, keyboard))
  {
    HeaderLayout(READY, vx, vy, buttons, keyboard, seqNo, timestamp);
    DataLayout(vx, vy, buttons, keyboard, seqNo, timestamp);
  }

  /** Decoding the encoding of a packet in any other state gives back the
      sequence number, timestamp and state, with zero velocities and masks. */
  lemma RoundTripNotReady(state: int, vx: F32, vy: F32, buttons: seq<byte>, keyboard: seq<byte>, seqNo: int, timestamp: F64)
    requires 0 <= seqNo < TWO32 && 0 <= state < 256 && state != READY
    ensures Decode(Encode(state, vx, vy, buttons, keyboard, seqNo, timestamp).value)
         == Some(Decoded(seqNo, timestamp, state, ZERO_F32, ZERO_F32, Zeros(2), Zeros(10)))
  {
    HeaderLayout(state, vx, vy, buttons, keyboard, seqNo, timestamp);
  }

  /** A packet that is not Ready, or Ready but shorter than TOTAL_SIZE,
      decodes with zero velocities, two zero button bytes and ten zero keyboard bytes. */
  lemma DecodeDefaults(packet: seq<byte>)
    requires Decode(packet).Some?
    requires packet[16] as int != READY || |packet| < TOTAL_SIZE
    ensures var d := Decode(packet).value;
      d.vx == ZERO_F32 && d.vy == ZERO_F32 && d.buttons == [0, 0] && d.keyboard == [0, 0, 0, 0, 0, 0, 0, 0, 0, 0]
  {
  }

  /** Decoding reads nothing past byte 39: the two pad bytes and anything after them are ignored. */
  lemma DecodeIgnoresPad(p: seq<byte>, q: seq<byte>)
    requires |p| >= TOTAL_SIZE && |q| >= TOTAL_SIZE
    requires p[..40] == q[..40]
    ensures Decode(p) == Decode(q)
  {
    assert p[..4] == p[..40][..4] && q[..4] == q[..40][..4];
    assert p[4..8] == p[..40][4..8] && q[4..8] == q[..40][4..8];
    assert p[8..16] == p[..40][8..16] && q[8..16] == q[..40][8..16];
    assert p[20..24] == p[..40][20..24] && q[20..24] == q[..40][20..24];
    assert p[24..28] == p[..40][24..28] && q[24..28] == q[..40][24..28];
    assert p[28..30] == p[..40][28..30] && q[28..30] == q[..40][28..30];
    assert p[30..40] == p[..40][30..40] && q[30..40] == q[..40][30..40];
    assert p[16] == p[..40][16] && q[16] == q[..40][16];
  }
}

=== FILE: control_sender.dfy ===
/** The control sender: sensitivity, mouse velocity, the button mask, the
    Ready flag, and one iteration of the fixed-rate send loop. Sockets,
    threads, locks and sleeping are not modelled: the loop body is a step
    function whose clock readings, float encoder and send outcome are
    parameters. */
module ControlSender {
  import opened Bytes
  import opened Wrappers
  import opened Values
  import Config
  import KE = KeyboardEncoder
  import CP = ControlPacket
  import Events

  datatype Sender = Sender(
    targetRate: int,
    sendInterval: real,
    serverIp: string,
    controlPort: int,
    socketOpen: bool,
    state: int,
    isRunning: bool,
    lastDx: int,
    lastDy: int,
    vx: real,
    vy: real,
    buttons: seq<byte>,
    sensitivity: real,
    keyboard: KE.Encoder,
    keyboardRunning: bool,
    packetSeq: int,
    totalSent: int,
    actualRate: real,
    hasBus: bool)

  /** What every operation keeps. */
  ghost predicate Valid(s: Sender)
  {
    && s.targetRate != 0
    && s.sendInterval == 1.0 / s.targetRate as real
    && (s.state == 0 || s.state == 1)
    && Config.MIN_SENSITIVITY <= s.sensitivity <= Config.MAX_SENSITIVITY
    && Config.MIN_MOUSE_VELOCITY <= s.vx <= Config.MAX_MOUSE_VELOCITY
    && Config.MIN_MOUSE_VELOCITY <= s.vy <= Config.MAX_MOUSE_VELOCITY
    && |s.buttons| == 2 && s.buttons[1] == 0
    && KE.Valid(s.keyboard) && s.keyboard.hasF5Hook
    && s.packetSeq >= 0 && s.totalSent >= 0
  }

  /** A new sender (`__init__`); a rate of 0 would divide by zero. `hasBus`
      says whether the owner attached an event bus. */
  function Init(targetRate: int, hasBus: bool): (s: Sender)
    requires targetRate != 0
    ensures Valid(s)
    ensures s.state == 0 && !s.isRunning && s.packetSeq == 0 && s.sensitivity == Config.DEFAULT_SENSITIVITY
  {
    Sender(targetRate, 1.0 / targetRate as real, "", 0, false, 0, false, 0, 0, 0.0, 0.0,
           Zeros(2), Config.DEFAULT_SENSITIVITY, KE.Init(true), false, 0, 0, 0.0, hasBus)
  }

  function Clamp(v: real, lo: real, hi: real): real
  {
    if v < lo then lo else if v > hi then hi else v
  }

  /** `set_sensitivity`: keep the value, clamped into the allowed range. */
  function SetSensitivity(s: Sender, x: real): (r: Sender)
    requires Valid(s)
    ensures Valid(r)
    ensures Config.MIN_SENSITIVITY <= r.sensitivity <= Config.MAX_SENSITIVITY
    ensures Config.MIN_SENSITIVITY <= x <= Config.MAX_SENSITIVITY ==> r.sensitivity == x
    ensures x < Config.MIN_SENSITIVITY ==> r.sensitivity == Config.MIN_SENSITIVITY
    ensures x > Config.MAX_SENSITIVITY ==> r.sensitivity == Config.MAX_SENSITIVITY
    ensures r == s.(sensitivity := r.sensitivity)
  {
    s.(sensitivity := Clamp(x, Config.MIN_SENSITIVITY, Config.MAX_SENSITIVITY))
  }

  /** The unclamped velocity of one axis: pixels per second, scaled by the
      sensitivity and the fixed scale factor. */
  function Scaled(d: int, dt: real, sensitivity: real): real
    requires dt > 0.0
  {
    (d as real / dt) * sensitivity * Config.MOUSE_SCALE_FACTOR
  }

  /** `update_mouse_position`: with a positive time step both velocities are
      recomputed and clamped to [-720, 720]; the raw deltas are always kept. */
  function UpdateMousePosition(s: Sender, dx: int, dy: int, dt: real): (r: Sender)
    requires Valid(s)
    ensures Valid(r)
    ensures r.lastDx == dx && r.lastDy == dy
    ensures dt <= 0.0 ==> r.vx == s.vx && r.vy == s.vy
    ensures dt > 0.0 ==> ClampedTo(r.vx, Scaled(dx, dt, s.sensitivity)) && ClampedTo(r.vy, Scaled(dy, dt, s.sensitivity))
    ensures r == s.(lastDx := dx, lastDy := dy, vx := r.vx, vy := r.vy)
  {
    var s' := if dt > 0.0 then
        s.(vx := Clamp(Scaled(dx, dt, s.sensitivity), Config.MIN_MOUSE_VELOCITY, Config.MAX_MOUSE_VELOCITY),
           vy := Clamp(Scaled(dy, dt, s.sensitivity), Config.MIN_MOUSE_VELOCITY, Config.MAX_MOUSE_VELOCITY))
      else s;
    s'.(lastDx := dx, lastDy := dy)
  }

  /** v is the raw velocity when that lies within the limits, else the limit it crosses. */
  ghost predicate ClampedTo(v: real, raw: real)
  {
    && Config.MIN_MOUSE_VELOCITY <= v <= Config.MAX_MOUSE_VELOCITY
    && (raw > Config.MAX_MOUSE_VELOCITY ==> v == Config.MAX_MOUSE_VELOCITY)
    && (raw < Config.MIN_MOUSE_VELOCITY ==> v == Config.MIN_MOUSE_VELOCITY)
    && (Config.MIN_MOUSE_VELOCITY <= raw <= Config.MAX_MOUSE_VELOCITY ==> v == raw)
  }

  /** `update_mouse_buttons`: byte 0 is rebuilt from the seven flags (bit 0
      left ... bit 6 scroll-down); bit 7 and byte 1 stay zero. */
  function UpdateMouseButtons(s: Sender, left: bool, right: bool, middle: bool,
                              mouse4: bool, mouse5: bool, scrollUp: bool, scrollDown: bool): (r: Sender)
    requires Valid(s)
    ensures Valid(r)
    ensures var flags := [left, right, middle, mouse4, mouse5, scrollUp, scrollDown];
      forall k :: 0 <= k < 7 ==> (TestBit(r.buttons[0] as int, k) <==> flags[k])
    ensures !TestBit(r.buttons[0] as int, 7) && r.buttons[1] == 0
    ensures r == s.(buttons := r.buttons)
  {
    var flags := [left, right, middle, mouse4, mouse5, scrollUp, scrollDown];
    PackByte(flags);
    PackBitsHigh(flags, 7);
    forall k | 0 <= k < 7
      ensures TestBit(PackBits(flags), k) <==> flags[k]
    {
      PackBitsTest(flags, k);
    }
    s.(buttons := s.buttons[0 := PackBits(flags) as byte])
  }

  /** The publication of the state-change callback, when a bus is attached. */
  function StateChanged(s: Sender): seq<Events.Publication>
  {
    if s.hasBus then [Events.Publication(Events.CONTROL_STATE_CHANGED, [VInt(s.state)])] else []
  }

  /** `toggle_state`: flip between Not Ready (0) and Ready (1) and announce the new state. */
  function ToggleState(s: Sender): (r: (Sender, seq<Events.Publication>))
    requires Valid(s)
    ensures Valid(r.0)
    ensures r.0.state == (if s.state == 0 then 1 else 0)
    ensures r.0 == s.(state := r.0.state)
    ensures s.hasBus ==> r.1 == [Events.Publication(Events.CONTROL_STATE_CHANGED, [VInt(r.0.state)])]
    ensures !s.hasBus ==> r.1 == []
  {
    var s' := s.(state := 1 - s.state);
    (s', StateChanged(s'))
  }

  /** Toggling twice restores the state. */
  lemma ToggleTwice(s: Sender)
    requires Valid(s)
    ensures ToggleState(ToggleState(s).0).0 == s
  {
  }

  /** A key press seen by the keyboard encoder; F5 toggles the Ready flag. */
  function KeyPress(s: Sender, key: KE.Key): (r: (Sender, seq<Events.Publication>))
    requires Valid(s)
    ensures Valid(r.0)
    ensures key == KE.F5 ==> r.0 == s.(state := 1 - s.state) && r.1 == StateChanged(r.0)
    ensures key != KE.F5 ==> r.0 == s.(keyboard := r.0.keyboard) && r.1 == []
    ensures key != KE.F5 && KE.KeyIndex(key).Some? ==> r.0.keyboard.pressed == s.keyboard.pressed + {KE.KeyIndex(key).value}
  {
    var (e, toggled) := KE.OnPress(s.keyboard, key);
    if toggled then ToggleState(s.(keyboard := e)) else (s.(keyboard := e), [])
  }

  /** A key release seen by the keyboard encoder. */
  function KeyRelease(s: Sender, key: KE.Key): (r: Sender)
    requires Valid(s)
    ensures Valid(r)
    ensures r == s.(keyboard := r.keyboard)
    ensures KE.KeyIndex(key).Some? ==> r.keyboard.pressed == s.keyboard.pressed - {KE.KeyIndex(key).value}
    ensures KE.KeyIndex(key).None? ==> r == s
  {
    s.(keyboard := KE.OnRelease(s.keyboard, key))
  }

  /** `start`: a no-op when already running; otherwise target the control
      port three above the TCP port. `socketOk` is whether creating the UDP
      socket succeeded; when it fails the sender stays stopped. */
  function Start(s: Sender, serverIp: string, tcpPort: int, socketOk: bool): (r: Sender)
    requires Valid(s)
    ensures Valid(r)
    ensures s.isRunning ==> r == s
    ensures !s.isRunning ==> r.serverIp == serverIp && r.controlPort == tcpPort + Config.CONTROL_PORT_OFFSET
    ensures !s.isRunning ==> (r.isRunning <==> socketOk)
  {
    if s.isRunning then s
    else
      var s' := s.(serverIp := serverIp, controlPort := tcpPort + 3);
      if socketOk then s'.(socketOpen := true, isRunning := true, keyboardRunning := true)
      else s'
  }

  /** `stop`: clear the running flag, stop the keyboard listener, close the socket. */
  function Stop(s: Sender): (r: Sender)
    requires Valid(s)
    ensures Valid(r) && !r.isRunning && !r.keyboardRunning && !r.socketOpen
    ensures r == s.(isRunning := r.isRunning, keyboardRunning := r.keyboardRunning, socketOpen := r.socketOpen)
  {
    s.(isRunning := false, keyboardRunning := false, socketOpen := false)
  }

  /** The loop's local variables: previous iteration time, packets in the
      current statistics window, and the window's start. */
  datatype LoopVars = LoopVars(lastTime: real, packetCount: int, statsTime: real)

  /** What one iteration did. */
  datatype Step =
    | Stopped                               // the running flag was clear: the loop exits
    | Failed                                // encoding or sending raised; the error is logged
    | Sent(packet: seq<byte>, sleep: Option<real>)

  /** The packet `ControlPacket.encode` builds from the sender's current
      state, or the error it raises: only the sequence number can be out of
      range, since the state is always 0 or 1. */
  function CurrentPacket(s: Sender, f32: real -> CP.F32, timestamp: CP.F64): (r: Result<seq<byte>, CP.EncodeError>)
    requires Valid(s)
    ensures r.Success? <==> s.packetSeq < TWO32
  {
    CP.Encode(s.state, f32(s.vx), f32(s.vy), s.buttons, KE.GetState(s.keyboard), s.packetSeq, timestamp)
  }

  /** A send sleeps for what is left of the interval after the time the
      iteration took, and not at all when nothing is left. */
  predicate SleepsRemainder(step: Step, interval: real, elapsed: real)
  {
    step.Sent? && (step.sleep.Some? <==> interval - elapsed > 0.0)
    && (step.sleep.Some? ==> step.sleep.value == interval - elapsed)
  }

  /** One iteration of `_send_loop` as written. `now` is the iteration's clock
      reading, `elapsed` the time spent in it, `f32` the float encoder,
      `timestamp` the encoded wall-clock time, `sendOk` whether `sendto`
      succeeded. The sequence number is passed to the encoder unwrapped. */
  function SendStep(s: Sender, lv: LoopVars, now: real, elapsed: real, f32: real -> CP.F32,
                    timestamp: CP.F64, sendOk: bool): (r: (Sender, LoopVars, Step))
    requires Valid(s)
    ensures Valid(r.0)
    ensures !s.isRunning ==> r == (s, lv, Stopped)
    ensures r.2.Failed? ==> r.0 == s && r.1 == lv
    ensures r.2.Sent? ==> r.0 == s.(packetSeq := s.packetSeq + 1, totalSent := s.totalSent + 1, actualRate := r.0.actualRate)
    ensures r.2.Sent? ==> SleepsRemainder(r.2, s.sendInterval, elapsed)
  {
    if !s.isRunning then (s, lv, Stopped)
    else
      match CurrentPacket(s, f32, timestamp)
      case Failure(_) => (s, lv, Failed)
      case Success(packet) =>
        if !sendOk then (s, lv, Failed)
        else SendBookkeeping(s, lv, now, elapsed, packet, s.packetSeq + 1)
  }

  /** Counters, rate statistics and sleep after a successful send; `nextSeq`
      is the sequence number for the next packet. */
  function SendBookkeeping(s: Sender, lv: LoopVars, now: real, elapsed: real, packet: seq<byte>, nextSeq: int): (r: (Sender, LoopVars, Step))
    requires Valid(s) && nextSeq >= 0
    ensures Valid(r.0) && r.2.Sent? && r.2.packet == packet
    ensures r.0 == s.(packetSeq := nextSeq, totalSent := s.totalSent + 1, actualRate := r.0.actualRate)
    ensures SleepsRemainder(r.2, s.sendInterval, elapsed)
    ensures r.1.lastTime == now
  {
    var count := lv.packetCount + 1;
    var s1 := s.(packetSeq := nextSeq, totalSent := s.totalSent + 1);
    var (s2, count', statsTime) :=
      if now - lv.statsTime >= 1.0 then (s1.(actualRate := count as real / (now - lv.statsTime)), 0, now)
      else (s1, count, lv.statsTime);
    var sleepTime := s.sendInterval - elapsed;
    (s2, LoopVars(now, count', statsTime), Sent(packet, if sleepTime > 0.0 then Some(sleepTime) else None))
  }

  /** A running step that sends puts the current Ready flag, velocities,
      masks and sequence number on the wire: the packet decodes to them. */
  lemma SendStepPacket(s: Sender, lv: LoopVars, now: real, elapsed: real, f32: real -> CP.F32, timestamp: CP.F64)
    requires Valid(s) && s.isRunning && s.packetSeq < TWO32
    ensures var r := SendStep(s, lv, now, elapsed, f32, timestamp, true);
      && r.2.Sent?
      && CP.Decode(r.2.packet).Some?
      && CP.Decode(r.2.packet).value.seqNo == s.packetSeq
      && CP.Decode(r.2.packet).value.state == s.state
      && CP.Decode(r.2.packet).value.timestamp == timestamp
      && (s.state == CP.READY ==>
            && CP.Decode(r.2.packet).value.buttons == s.buttons
            && CP.Decode(r.2.packet).value.keyboard == KE.GetState(s.keyboard)
            && CP.Decode(r.2.packet).value.vx == f32(s.vx)
            && CP.Decode(r.2.packet).value.vy == f32(s.vy))
  {
    var kb := KE.GetState(s.keyboard);
    if s.state == CP.READY {
      CP.RoundTripReady(f32(s.vx), f32(s.vy), s.buttons, kb, s.packetSeq, timestamp);
    } else {
      CP.RoundTripNotReady(s.state, f32(s.vx), f32(s.vy), s.buttons, kb, s.packetSeq, timestamp);
    }
  }

  /** As written, once the sequence number reaches 2^32 the encoder raises on
      every iteration: nothing is sent and nothing changes, forever. */
  lemma SeqOverflowStalls(s: Sender, lv: LoopVars, now: real, elapsed: real, f32: real -> CP.F32, timestamp: CP.F64, sendOk: bool)
    requires Valid(s) && s.isRunning && s.packetSeq == TWO32
    ensures SendStep(s, lv, now, elapsed, f32, timestamp, sendOk) == (s, lv, Failed)
  {
  }

  /** The send step with the sequence number wrapping modulo 2^32, as a
      32-bit wire field evidently intends. */
  function SendStepWrapped(s: Sender, lv: LoopVars, now: real, elapsed: real, f32: real -> CP.F32,
                           timestamp: CP.F64, sendOk: bool): (r: (Sender, LoopVars, Step))
    requires Valid(s) && s.packetSeq < TWO32
    ensures Valid(r.0) && r.0.packetSeq < TWO32
    ensures !s.isRunning ==> r == (s, lv, Stopped)
    ensures s.isRunning && sendOk ==> r.2.Sent?
    ensures r.2.Sent? ==> r.0 == s.(packetSeq := (s.packetSeq + 1) % TWO32, totalSent := s.totalSent + 1, actualRate := r.0.actualRate)
    ensures r.2.Failed? ==> r.0 == s && r.1 == lv
  {
    if !s.isRunning then (s, lv, Stopped)
    else
      match CurrentPacket(s, f32, timestamp)
      case Failure(_) => (s, lv, Failed)
      case Success(packet) =>
        if !sendOk then (s, lv, Failed)
        else SendBookkeeping(s, lv, now, elapsed, packet, (s.packetSeq + 1) % TWO32)
  }

  /** With wrapping, the sender keeps sending past 2^32 packets: the packet
      sent at sequence number 2^32 - 1 decodes to the current state and that
      sequence number, and the next one is sent with sequence number 0. */
  lemma WrappedSendNeverStalls(s: Sender, lv: LoopVars, now: real, elapsed: real, f32: real -> CP.F32, timestamp: CP.F64)
    requires Valid(s) && s.isRunning && s.packetSeq == TWO32 - 1
    ensures var r := SendStepWrapped(s, lv, now, elapsed, f32, timestamp, true);
      r.2.Sent? && r.0.packetSeq == 0
      && CP.Decode(r.2.packet).Some?
      && CP.Decode(r.2.packet).value.seqNo == s.packetSeq
      && CP.Decode(r.2.packet).value.state == s.state
      && SendStepWrapped(r.0, r.1, now, elapsed, f32, timestamp, true).2.Sent?
  {
    var r := SendStepWrapped(s, lv, now, elapsed, f32, timestamp, true);
    SendStepPacket(s, lv, now, elapsed, f32, timestamp);
    assert r.2.packet == SendStep(s, lv, now, elapsed, f32, timestamp, true).2.packet;
    assert (s.packetSeq + 1) % TWO32 == 0;
    var s1 := r.0;
    assert s1.isRunning && s1.packetSeq == 0 && Valid(s1);
    var r2 := SendStepWrapped(s1, r.1, now, elapsed, f32, timestamp, true);
    assert r2.2.Sent?;
  }

  /** `get_statistics` of the sender. */
  function GetStatistics(s: Sender): (r: map<string, Value>)
    requires Valid(s)
    ensures r.Keys == {"state", "total_packets", "actual_rate", "target_rate", "pressed_keys"}
    ensures r["state"] == VStr(if s.state == 1 then "Ready" else "Not Ready")
    ensures r["total_packets"] == VInt(s.totalSent)
    ensures r["actual_rate"] == VReal(s.actualRate)
    ensures r["target_rate"] == VInt(s.targetRate)
    ensures r["pressed_keys"] == VInt(KE.GetPressedCount(s.keyboard))
  {
    map["state" := VStr(if s.state == 1 then "Ready" else "Not Ready"),
        "total_packets" := VInt(s.totalSent),
        "actual_rate" := VReal(s.actualRate),
        "target_rate" := VInt(s.targetRate),
        "pressed_keys" := VInt(KE.GetPressedCount(s.keyboard))]
  }

  /** The reported pressed count follows the keyboard: pressing a mapped key
      that is up, other than F5, raises it by one. */
  lemma StatisticsCountPress(s: Sender, key: KE.Key)
    requires Valid(s) && key != KE.F5 && KE.KeyIndex(key).Some?
    requires KE.KeyIndex(key).value !in s.keyboard.pressed
    ensures GetStatistics(KeyPress(s, key).0)["pressed_keys"] == VInt(KE.GetPressedCount(s.keyboard) + 1)
  {
  }

  /** The reported state follows the Ready flag: a toggle, or F5, flips it. */
  lemma StatisticsFollowToggle(s: Sender)
    requires Valid(s)
    ensures GetStatistics(ToggleState(s).0)["state"] == VStr(if s.state == 1 then "Not Ready" else "Ready")
    ensures GetStatistics(KeyPress(s, KE.F5).0)["state"] == GetStatistics(ToggleState(s).0)["state"]
  {
  }

  /** The reported packet count follows the loop: every send adds one, and a
      failed or stopped iteration adds none. */
  lemma StatisticsCountSend(s: Sender, lv: LoopVars, now: real, elapsed: real, f32: real -> CP.F32,
                            timestamp: CP.F64, sendOk: bool)
    requires Valid(s)
    ensures var r := SendStep(s, lv, now, elapsed, f32, timestamp, sendOk);
      GetStatistics(r.0)["total_packets"] == VInt(s.totalSent + (if r.2.Sent? then 1 else 0))
  {
  }
}

=== FILE: decimal.dfy ===
/** Decimal text for integers: `str(n)` and the plain forms `int(s)` accepts. */
module Decimal {
  import opened Wrappers

  predicate IsDigit(c: char)
  {
    '0' <= c <= '9'
  }

  function DigitChar(d: nat): (c: char)
    requires d < 10
    ensures IsDigit(c) && c as int - '0' as int == d
  {
    ('0' as int + d) as char
  }

  function DigitValue(c: char): (d: nat)
    requires IsDigit(c)
    ensures d < 10 && DigitChar(d) == c
  {
    c as int - '0' as int
  }

  /** `str(n)` for n >= 0: the digits, most significant first, no leading zero. */
  function ShowNat(n: nat): (s: string)
    ensures |s| >= 1
    ensures forall i :: 0 <= i < |s| ==> IsDigit(s[i])
    ensures |s| > 1 ==> s[0] != '0'
  {
    if n < 10 then [DigitChar(n)] else ShowNat(n / 10) + [DigitChar(n % 10)]
  }

  /** `str(n)`: a minus sign before the digits of a negative number. */
  function Show(n: int): (s: string)
    ensures |s| >= 1
    ensures s[0] == '-' <==> n < 0
  {
    if n < 0 then "-" + ShowNat(-n) else ShowNat(n)
  }

  /** The value of a non-empty string of digits; None when it is empty or holds another character. */
  function ParseDigits(s: string): (r: Option<nat>)
    ensures r.Some? <==> |s| >= 1 && forall i :: 0 <= i < |s| ==> IsDigit(s[i])
  {
    if s == [] then None
    else if !IsDigit(s[|s| - 1]) then None
    else if |s| == 1 then Some(DigitValue(s[0]))
    else
      match ParseDigits(s[..|s| - 1])
      case None => None
      case Some(v) => Some(10 * v + DigitValue(s[|s| - 1]))
  }

  /** `int(s)` on an optional sign followed by decimal digits; None where
      Python raises ValueError. */
  function Parse(s: string): (r: Option<int>)
    ensures r.Some? <==> s != [] && ParseDigits(if s[0] == '-' || s[0] == '+' then s[1..] else s).Some?
    ensures r.Some? && s[0] == '-' ==> r.value <= 0
    ensures r.Some? && s[0] != '-' ==> r.value >= 0
  {
    if s == [] then None
    else if s[0] == '-' then
      match ParseDigits(s[1..])
      case None => None
      case Some(v) => var neg: int := -(v as int); Some(neg)
    else if s[0] == '+' then
      match ParseDigits(s[1..])
      case None => None
      case Some(v) => Some(v)
    else
      match ParseDigits(s)
      case None => None
      case Some(v) => Some(v)
  }

  lemma {:induction false} ParseShowNat(n: nat)
    ensures ParseDigits(ShowNat(n)) == Some(n)
  {
    if n >= 10 {
      var s := ShowNat(n);
      assert s[..|s| - 1] == ShowNat(n / 10);
      ParseShowNat(n / 10);
    }
  }

  /** `int(str(n)) == n` for every integer. */
  lemma ParseShow(n: int)
    ensures Parse(Show(n)) == Some(n)
  {
    if n < 0 {
      ParseShowNegative(n);
    } else {
      ParseShowNat(n);
      var t := ShowNat(n);
      assert IsDigit(t[0]);
    }
  }

  lemma ParseShowNegative(n: int)
    requires n < 0
    ensures Parse(Show(n)) == Some(n)
  {
    var t := ShowNat(-n);
    var s := "-" + t;
    assert s[0] == '-' && s[1..] == t;
    ParseShowNat(-n);
  }
}

=== FILE: events.dfy ===
/** The event bus: for each event name, the list of subscribed callbacks in
    subscription order. Callbacks are opaque identities; publishing is
    modelled as the sequence of callbacks it invokes. */
module Events {
  import opened Wrappers
  import opened Values

  const CONNECTING: string := "connecting"
  const CONNECTED: string := "connected"
  const DISCONNECTED: string := "disconnected"
  const CONNECTION_ERROR: string := "connection_error"
  const FRAME_RECEIVED: string := "frame_received"
  const PARAMS_RECEIVED: string := "params_received"
  const RESOLUTION_CHANGED: string := "resolution_changed"
  const WINDOW_MODE_CHANGED: string := "window_mode_changed"
  const CONTROL_STATE_CHANGED: string := "control_state_changed"

  /** One call of `publish`: the event name and its positional arguments. */
  datatype Publication = Publication(event: string, args: seq<Value>)

  datatype Bus<C> = Bus(listeners: map<string, seq<C>>)

  /** `list.remove` on a callback that is not in the list raises ValueError. */
  datatype UnsubscribeError = NotSubscribed

  function Empty<C>(): Bus<C> {
    Bus(map[])
  }

  /** The callbacks of an event, empty when the event has no list. */
  function Callbacks<C>(b: Bus<C>, event: string): seq<C>
  {
    if event in b.listeners then b.listeners[event] else []
  }

  /** `subscribe`: append to the event's list, creating it when absent. */
  function Subscribe<C>(b: Bus<C>, event: string, callback: C): (r: Bus<C>)
    ensures event in r.listeners
    ensures r.listeners[event] == Callbacks(b, event) + [callback]
    ensures forall e :: e in b.listeners && e != event ==> e in r.listeners && r.listeners[e] == b.listeners[e]
    ensures r.listeners.Keys == b.listeners.Keys + {event}
  {
    Bus(b.listeners[event := Callbacks(b, event) + [callback]])
  }

  /** `publish`: the callbacks invoked, in order, once per registration. */
  function Publish<C>(b: Bus<C>, event: string): (r: seq<C>)
    ensures event !in b.listeners ==> r == []
    ensures event in b.listeners ==> r == b.listeners[event]
  {
    Callbacks(b, event)
  }

  /** The index of the first occurrence of x in s. */
  function FirstIndex<C(==)>(s: seq<C>, x: C): (i: nat)
    requires x in s
    ensures i < |s| && s[i] == x
    ensures forall j :: 0 <= j < i ==> s[j] != x
  {
    if s[0] == x then 0 else 1 + FirstIndex(s[1..], x)
  }

  /** `list.remove`: drop the first occurrence of x. */
  function RemoveFirst<C(==)>(s: seq<C>, x: C): (r: seq<C>)
    requires x in s
    ensures r == s[..FirstIndex(s, x)] + s[FirstIndex(s, x) + 1..]
  {
    if s[0] == x then s[1..]
    else [s[0]] + RemoveFirst(s[1..], x)
  }

  /** `unsubscribe`: a no-op for an unknown event; otherwise removes the first
      registration of the callback, and fails when there is none. */
  function Unsubscribe<C(==)>(b: Bus<C>, event: string, callback: C): (r: Result<Bus<C>, UnsubscribeError>)
    ensures event !in b.listeners ==> r == Success(b)
    ensures event in b.listeners ==> (r.Failure? <==> callback !in b.listeners[event])
    ensures r.Success? ==> r.value.listeners.Keys == b.listeners.Keys
    ensures r.Success? ==> forall e :: e in b.listeners && e != event ==> r.value.listeners[e] == b.listeners[e]
    ensures r.Success? && event in b.listeners ==>
      callback in b.listeners[event] && r.value.listeners[event] == RemoveFirst(b.listeners[event], callback)
  {
    if event !in b.listeners then Success(b)
    else if callback !in b.listeners[event] then Failure(NotSubscribed)
    else Success(Bus(b.listeners[event := RemoveFirst(b.listeners[event], callback)]))
  }

  /** A callback subscribed once is invoked once more by every later publish, after the earlier ones. */
  lemma SubscribeThenPublish<C>(b: Bus<C>, event: string, callback: C, other: string)
    ensures Publish(Subscribe(b, event, callback), event) == Publish(b, event) + [callback]
    ensures other != event ==> Publish(Subscribe(b, event, callback), other) == Publish(b, other)
  {
  }

  /** Unsubscribing a callback that was just subscribed, and was not before,
      restores what every publish invokes. */
  lemma {:induction false} SubscribeUnsubscribe<C>(b: Bus<C>, event: string, callback: C)
    requires callback !in Callbacks(b, event)
    ensures Unsubscribe(Subscribe(b, event, callback), event, callback).Success?
    ensures forall e :: Publish(Unsubscribe(Subscribe(b, event, callback), event, callback).value, e) == Publish(b, e)
  {
    var s := Callbacks(b, event);
    RemoveLastFresh(s, callback);
  }

  /** Removing the first occurrence of a value appended to a list that lacked it gives the list back. */
  lemma {:induction false} RemoveLastFresh<C>(s: seq<C>, x: C)
    requires x !in s
    ensures RemoveFirst(s + [x], x) == s
  {
    var i := FirstIndex(s + [x], x);
    assert i == |s|;
    assert (s + [x])[..i] == s;
  }

  /** Removing drops exactly one registration of x and keeps every other. */
  lemma RemoveFirstMultiset<C>(s: seq<C>, x: C)
    requires x in s
    ensures multiset(RemoveFirst(s, x)) == multiset(s) - multiset{x}
  {
    var i := FirstIndex(s, x);
    assert s == s[..i] + [x] + s[i + 1..];
  }

  /** A callback registered twice is removed one registration at a time. */
  lemma UnsubscribeOneOfTwo<C>(b: Bus<C>, event: string, callback: C)
    requires event in b.listeners
    requires multiset(b.listeners[event])[callback] >= 2
    ensures Unsubscribe(b, event, callback).Success?
    ensures callback in Unsubscribe(b, event, callback).value.listeners[event]
  {
    var r := RemoveFirst(b.listeners[event], callback);
    RemoveFirstMultiset(b.listeners[event], callback);
    assert multiset(r)[callback] >= 1;
    assert Unsubscribe(b, event, callback).value.listeners[event] == r;
  }
}

=== FILE: keyboard_encoder.dfy ===
/** The keyboard encoder: a set of pressed key indices and the 10-byte
    bitmask built from it, where bit `i % 8` of byte `i / 8` stands for the
    key with index `i` of the key table. Capturing keys from the operating
    system is not part of this model; key events arrive as parameters. */
module KeyboardEncoder {
  import opened Bytes
  import opened Wrappers

  /** The keys the capture library reports: the named special keys of the
      table, any other named key, and character keys. */
  datatype Key =
    | Esc | F1 | F2 | F3 | F4 | F5 | F6 | F7 | F8 | F9 | F10 | F11 | F12
    | Backspace | Tab | CapsLock | Enter | ShiftL | ShiftR | CtrlL | AltL | Space | AltR | CtrlR
    | OtherNamed(name: string)
    | Char(c: char)

  const STATE_SIZE: nat := 10
  /** Number of keys in the table; indices run from 0 to 70. */
  const KEY_COUNT: nat := 71

  /** The key table read by index: the key whose bit is `i`, None past 70. */
  function KeyAt(i: nat): Option<Key>
  {
    match i
    case 0 => Some(Esc)
    case 1 => Some(F1)
    case 2 => Some(F2)
    case 3 => Some(F3)
    case 4 => Some(F4)
    case 5 => Some(F5)
    case 6 => Some(F6)
    case 7 => Some(F7)
    case 8 => Some(F8)
    case 9 => Some(F9)
    case 10 => Some(F10)
    case 11 => Some(F11)
    case 12 => Some(F12)
    case 13 => Some(Char('`'))
    case 14 => Some(Char('1'))
    case 15 => Some(Char('2'))
    case 16 => Some(Char('3'))
    case 17 => Some(Char('4'))
    case 18 => Some(Char('5'))
    case 19 => Some(Char('6'))
    case 20 => Some(Char('7'))
    case 21 => Some(Char('8'))
    case 22 => Some(Char('9'))
    case 23 => Some(Char('0'))
    case 24 => Some(Char('-'))
    case 25 => Some(Char('='))
    case 26 => Some(Backspace)
    case 27 => Some(Tab)
    case 28 => Some(Char('q'))
    case 29 => Some(Char('w'))
    case 30 => Some(Char('e'))
    case 31 => Some(Char('r'))
    case 32 => Some(Char('t'))
    case 33 => Some(Char('y'))
    case 34 => Some(Char('u'))
    case 35 => Some(Char('i'))
    case 36 => Some(Char('o'))
    case 37 => Some(Char('p'))
    case 38 => Some(Char('['))
    case 39 => Some(Char(']'))
    case 40 => Some(Char('\\'))
    case 41 => Some(CapsLock)
    case 42 => Some(Char('a'))
    case 43 => Some(Char('s'))
    case 44 => Some(Char('d'))
    case 45 => Some(Char('f'))
    case 46 => Some(Char('g'))
    case 47 => Some(Char('h'))
    case 48 => Some(Char('j'))
    case 49 => Some(Char('k'))
    case 50 => Some(Char('l'))
    case 51 => Some(Char(';'))
    case 52 => Some(Char('\''))
    case 53 => Some(Enter)
    case 54 => Some(ShiftL)
    case 55 => Some(Char('z'))
    case 56 => Some(Char('x'))
    case 57 => Some(Char('c'))
    case 58 => Some(Char('v'))
    case 59 => Some(Char('b'))
    case 60 => Some(Char('n'))
    case 61 => Some(Char('m'))
    case 62 => Some(Char(','))
    case 63 => Some(Char('.'))
    case 64 => Some(Char('/'))
    case 65 => Some(ShiftR)
    case 66 => Some(CtrlL)
    case 67 => Some(AltL)
    case 68 => Some(Space)
    case 69 => Some(AltR)
    case 70 => Some(CtrlR)
    case _ => None
  }

  /** `KEY_MAP.get(key)`: key -> bit index, None for an unmapped key. */
  function KeyIndex(key: Key): (r: Option<nat>)
  {
    match key
    case Esc => Some(0)
    case F1 => Some(1)
    case F2 => Some(2)
    case F3 => Some(3)
    case F4 => Some(4)
    case F5 => Some(5)
    case F6 => Some(6)
    case F7 => Some(7)
    case F8 => Some(8)
    case F9 => Some(9)
    case F10 => Some(10)
    case F11 => Some(11)
    case F12 => Some(12)
    case Backspace => Some(26)
    case Tab => Some(27)
    case CapsLock => Some(41)
    case Enter => Some(53)
    case ShiftL => Some(54)
    case ShiftR => Some(65)
    case CtrlL => Some(66)
    case AltL => Some(67)
    case Space => Some(68)
    case AltR => Some(69)
    case CtrlR => Some(70)
    case OtherNamed(_) => None
    case Char(c) => CharIndex(c)
  }

  function CharIndex(c: char): Option<nat>
  {
    match c
    case '`' => Some(13)
    case '1' => Some(14)
    case '2' => Some(15)
    case '3' => Some(16)
    case '4' => Some(17)
    case '5' => Some(18)
    case '6' => Some(19)
    case '7' => Some(20)
    case '8' => Some(21)
    case '9' => Some(22)
    case '0' => Some(23)
    case '-' => Some(24)
    case '=' => Some(25)
    case 'q' => Some(28)
    case 'w' => Some(29)
    case 'e' => Some(30)
    case 'r' => Some(31)
    case 't' => Some(32)
    case 'y' => Some(33)
    case 'u' => Some(34)
    case 'i' => Some(35)
    case 'o' => Some(36)
    case 'p' => Some(37)
    case '[' => Some(38)
    case ']' => Some(39)
    case '\\' => Some(40)
    case 'a' => Some(42)
    case 's' => Some(43)
    case 'd' => Some(44)
    case 'f' => Some(45)
    case 'g' => Some(46)
    case 'h' => Some(47)
    case 'j' => Some(48)
    case 'k' => Some(49)
    case 'l' => Some(50)
    case ';' => Some(51)
    case '\'' => Some(52)
    case 'z' => Some(55)
    case 'x' => Some(56)
    case 'c' => Some(57)
    case 'v' => Some(58)
    case 'b' => Some(59)
    case 'n' => Some(60)
    case 'm' => Some(61)
    case ',' => Some(62)
    case '.' => Some(63)
    case '/' => Some(64)
    case _ => None
  }

  /** Every mapped key sits at its own index of the key table, and every
      index is below KEY_COUNT. */
  lemma KeyIndexInTable(key: Key)
    requires KeyIndex(key).Some?
    ensures KeyIndex(key).value < KEY_COUNT
    ensures KeyAt(KeyIndex(key).value) == Some(key)
  {
    match key
    case Char(c) => CharIndexInTable(c);
    case OtherNamed(_) =>
    case _ =>
      if key.Esc? || key.F1? || key.F2? || key.F3? || key.F4? || key.F5? || key.F6?
         || key.F7? || key.F8? || key.F9? || key.F10? || key.F11? || key.F12? {
        FunctionKeysInTable(key);
      } else {
        OtherKeysInTable(key);
      }
  }

  lemma FunctionKeysInTable(key: Key)
    requires key.Esc? || key.F1? || key.F2? || key.F3? || key.F4? || key.F5? || key.F6?
          || key.F7? || key.F8? || key.F9? || key.F10? || key.F11? || key.F12?
    ensures KeyIndex(key).Some? && KeyIndex(key).value < KEY_COUNT
    ensures KeyAt(KeyIndex(key).value) == Some(key)
  {
  }

  lemma OtherKeysInTable(key: Key)
    requires key.Backspace? || key.Tab? || key.CapsLock? || key.Enter? || key.ShiftL? || key.ShiftR?
          || key.CtrlL? || key.AltL? || key.Space? || key.AltR? || key.CtrlR?
    ensures KeyIndex(key).Some? && KeyIndex(key).value < KEY_COUNT
    ensures KeyAt(KeyIndex(key).value) == Some(key)
  {
  }

  lemma CharIndexInTable(c: char)
    requires CharIndex(c).Some?
    ensures CharIndex(c).value < KEY_COUNT && KeyAt(CharIndex(c).value) == Some(Char(c))
  {
    if CharIndex(c).value < 40 {
      UpperCharsInTable(c);
    } else {
      LowerCharsInTable(c);
    }
  }

  /** The character keys of the number row and the top letter row. */
  lemma UpperCharsInTable(c: char)
    requires CharIndex(c).Some? && CharIndex(c).value < 40
    ensures KeyAt(CharIndex(c).value) == Some(Char(c))
  {
  }

  /** The character keys from the backslash on. */
  lemma LowerCharsInTable(c: char)
    requires CharIndex(c).Some? && CharIndex(c).value >= 40
    ensures CharIndex(c).value < KEY_COUNT && KeyAt(CharIndex(c).value) == Some(Char(c))
  {
  }

  /** Every entry of the key table maps back to its own index; the table has
      exactly KEY_COUNT entries. Checked one byte, or half a byte, at a time. */
  lemma TableInKeyIndex(i: nat)
    ensures KeyAt(i).Some? <==> i < KEY_COUNT
    ensures KeyAt(i).Some? ==> KeyIndex(KeyAt(i).value) == Some(i)
  {
    if i < 8 { TableSpan0(i); }
    else if i < 16 { TableSpan8(i); }
    else if i < 24 { TableSpan16(i); }
    else if i < 32 { TableSpan24(i); }
    else if i < 40 { TableSpan32(i); }
    else if i < 48 { TableSpan40(i); }
    else if i < 52 { TableSpan48(i); }
    else if i < 56 { TableSpan52(i); }
    else if i < 60 { TableSpan56(i); }
    else if i < 64 { TableSpan60(i); }
    else if i < 68 { TableSpan64(i); }
    else if i < KEY_COUNT { TableSpan68(i); }
  }

  lemma TableSpan0(i: nat)
    requires 0 <= i < 8
    ensures KeyAt(i).Some? && KeyIndex(KeyAt(i).value) == Some(i)
  {
  }

  lemma TableSpan8(i: nat)
    requires 8 <= i < 16
    ensures KeyAt(i).Some? && KeyIndex(KeyAt(i).value) == Some(i)
  {
  }

  lemma TableSpan16(i: nat)
    requires 16 <= i < 24
    ensures KeyAt(i).Some? && KeyIndex(KeyAt(i).value) == Some(i)
  {
  }

  lemma TableSpan24(i: nat)
    requires 24 <= i < 32
    ensures KeyAt(i).Some? && KeyIndex(KeyAt(i).value) == Some(i)
  {
  }

  lemma TableSpan32(i: nat)
    requires 32 <= i < 40
    ensures KeyAt(i).Some? && KeyIndex(KeyAt(i).value) == Some(i)
  {
  }

  lemma TableSpan40(i: nat)
    requires 40 <= i < 48
    ensures KeyAt(i).Some? && KeyIndex(KeyAt(i).value) == Some(i)
  {
  }

  lemma TableSpan48(i: nat)
    requires 48 <= i < 52
    ensures KeyAt(i).Some? && KeyIndex(KeyAt(i).value) == Some(i)
  {
  }

  lemma TableSpan52(i: nat)
    requires 52 <= i < 56
    ensures KeyAt(i).Some? && KeyIndex(KeyAt(i).value) == Some(i)
  {
  }

  lemma TableSpan56(i: nat)
    requires 56 <= i < 60
    ensures KeyAt(i).Some? && KeyIndex(KeyAt(i).value) == Some(i)
  {
  }

  lemma TableSpan60(i: nat)
    requires 60 <= i < 64
    ensures KeyAt(i).Some? && KeyIndex(KeyAt(i).value) == Some(i)
  {
  }

  lemma TableSpan64(i: nat)
    requires 64 <= i < 68
    ensures KeyAt(i).Some? && KeyIndex(KeyAt(i).value) == Some(i)
  {
  }

  lemma TableSpan68(i: nat)
    requires 68 <= i < 71
    ensures KeyAt(i).Some? && KeyIndex(KeyAt(i).value) == Some(i)
  {
  }

  /** The key map is injective: distinct keys never share a bit. */
  lemma KeyMapInjective(k1: Key, k2: Key)
    requires KeyIndex(k1).Some? && KeyIndex(k1) == KeyIndex(k2)
    ensures k1 == k2
  {
    KeyIndexInTable(k1);
    KeyIndexInTable(k2);
  }

  /** The 8 flags of byte j of the bitmask. */
  function Row(pressed: set<nat>, j: nat): (r: seq<bool>)
    ensures |r| == 8
  {
    seq(8, k => 8 * j + k in pressed)
  }

  function RowByte(pressed: set<nat>, j: nat): byte
  {
    PackByte(Row(pressed, j));
    PackBits(Row(pressed, j)) as byte
  }

  /** Nothing pressed: ten zero bytes. */
  lemma KeyBitsEmpty()
    ensures KeyBits({}) == Zeros(STATE_SIZE)
  {
    forall j | 0 <= j < STATE_SIZE
      ensures KeyBits({})[j] == 0
    {
      assert Row({}, j) == [false, false, false, false, false, false, false, false];
    }
  }

  /** The 10-byte bitmask of a set of pressed indices. */
  function KeyBits(pressed: set<nat>): (r: seq<byte>)
    ensures |r| == STATE_SIZE
  {
    seq(STATE_SIZE, j requires 0 <= j => RowByte(pressed, j))
  }

  /** Bit i of the bitmask is set iff index i is pressed. */
  lemma KeyBitsCorrect(pressed: set<nat>, i: nat)
    requires i < 8 * STATE_SIZE
    ensures TestBit(KeyBits(pressed)[i / 8] as int, i % 8) <==> i in pressed
  {
    var j, k := i / 8, i % 8;
    assert 8 * j + k == i;
    var row := Row(pressed, j);
    assert row[k] <==> i in pressed;
    PackByte(row);
    assert KeyBits(pressed)[j] as int == PackBits(row);
    PackBitsTest(row, k);
  }

  /** With only table indices pressed, byte 9 of the bitmask is zero. */
  lemma LastByteZero(pressed: set<nat>)
    requires forall i :: i in pressed ==> i < KEY_COUNT
    ensures KeyBits(pressed)[9] == 0
  {
    PackBitsNone(Row(pressed, 9));
  }

  /** Adding index i to the pressed set sets exactly bit i of the bitmask. */
  lemma KeyBitsAdd(pressed: set<nat>, i: nat)
    requires i < 8 * STATE_SIZE
    ensures SetBit(KeyBits(pressed)[i / 8] as int, i % 8) < 256
    ensures KeyBits(pressed + {i}) == KeyBits(pressed)[i / 8 := SetBit(KeyBits(pressed)[i / 8] as int, i % 8) as byte]
  {
    var j, k := i / 8, i % 8;
    assert Row(pressed + {i}, j) == Row(pressed, j)[k := true];
    PackBitsSet(Row(pressed, j), k);
    PackByte(Row(pressed + {i}, j));
    forall j' | 0 <= j' < STATE_SIZE && j' != j
      ensures Row(pressed + {i}, j') == Row(pressed, j')
    {
    }
  }

  /** `_update_state`: clear the bitmask, then set the bit of every pressed index. */
  method UpdateState(pressed: set<nat>) returns (state: seq<byte>)
    requires forall i :: i in pressed ==> i < 8 * STATE_SIZE
    ensures state == KeyBits(pressed)
    ensures forall i :: 0 <= i < 8 * STATE_SIZE ==> (TestBit(state[i / 8] as int, i % 8) <==> i in pressed)
  {
    state := Zeros(STATE_SIZE);
    var rest := pressed;
    ghost var done: set<nat> := {};
    KeyBitsEmpty();
    while rest != {}
      invariant rest !! done && rest + done == pressed
      invariant state == KeyBits(done)
      decreases rest
    {
      var i :| i in rest;
      KeyBitsAdd(done, i);
      state := state[i / 8 := SetBit(state[i / 8] as int, i % 8) as byte];
      rest := rest - {i};
      done := done + {i};
    }
    forall i | 0 <= i < 8 * STATE_SIZE
      ensures TestBit(state[i / 8] as int, i % 8) <==> i in pressed
    {
      KeyBitsCorrect(pressed, i);
    }
  }

  /** The encoder: the pressed indices, the bitmask last computed from them,
      and whether an F5 callback is registered. */
  datatype Encoder = Encoder(pressed: set<nat>, state: seq<byte>, hasF5Hook: bool)

  /** What every update keeps: only table indices are pressed and the
      bitmask is the one of the pressed set. */
  ghost predicate Valid(e: Encoder)
  {
    && (forall i :: i in e.pressed ==> i < KEY_COUNT)
    && e.state == KeyBits(e.pressed)
  }

  /** A fresh encoder: nothing pressed, ten zero bytes. */
  function Init(hasF5Hook: bool): (e: Encoder)
    ensures Valid(e) && |e.state| == STATE_SIZE && GetPressedCount(e) == 0
  {
    KeyBitsEmpty();
    Encoder({}, Zeros(STATE_SIZE), hasF5Hook)
  }

  /** `_on_press`: F5 only invokes the toggle callback (reported as the
      second component); other mapped keys add their index. */
  function OnPress(e: Encoder, key: Key): (r: (Encoder, bool))
    requires Valid(e)
    ensures Valid(r.0)
    ensures r.1 <==> key == F5 && e.hasF5Hook
    ensures key == F5 || KeyIndex(key).None? ==> r.0 == e
    ensures key != F5 && KeyIndex(key).Some? ==> r.0.pressed == e.pressed + {KeyIndex(key).value}
  {
    if key == F5 then (e, e.hasF5Hook)
    else match KeyIndex(key)
      case None => (e, false)
      case Some(i) =>
        KeyIndexInTable(key);
        var pressed := e.pressed + {i};
        (e.(pressed := pressed, state := KeyBits(pressed)), false)
  }

  /** `_on_release`: a mapped key (F5 included) discards its index. */
  function OnRelease(e: Encoder, key: Key): (r: Encoder)
    requires Valid(e)
    ensures Valid(r)
    ensures KeyIndex(key).None? ==> r == e
    ensures KeyIndex(key).Some? ==> r.pressed == e.pressed - {KeyIndex(key).value}
  {
    match KeyIndex(key)
    case None => e
    case Some(i) =>
      var pressed := e.pressed - {i};
      e.(pressed := pressed, state := KeyBits(pressed))
  }

  /** `get_state`: a copy of the bitmask. */
  function GetState(e: Encoder): (r: seq<byte>)
    requires Valid(e)
    ensures |r| == STATE_SIZE && r[9] == 0
    ensures forall i :: 0 <= i < 8 * STATE_SIZE ==> (TestBit(r[i / 8] as int, i % 8) <==> i in e.pressed)
  {
    LastByteZero(e.pressed);
    forall i | 0 <= i < 8 * STATE_SIZE
      ensures TestBit(e.state[i / 8] as int, i % 8) <==> i in e.pressed
    {
      KeyBitsCorrect(e.pressed, i);
    }
    e.state
  }

  /** `get_pressed_count`. */
  function GetPressedCount(e: Encoder): (r: nat)
  {
    |e.pressed|
  }

  /** Pressing an already pressed key or releasing one that is not pressed changes nothing. */
  lemma RepeatedEventsNoChange(e: Encoder, key: Key)
    requires Valid(e) && KeyIndex(key).Some?
    ensures key != F5 && KeyIndex(key).value in e.pressed ==> OnPress(e, key).0 == e
    ensures KeyIndex(key).value !in e.pressed ==> OnRelease(e, key) == e
  {
    var i := KeyIndex(key).value;
    if i in e.pressed {
      assert e.pressed + {i} == e.pressed;
    } else {
      assert e.pressed - {i} == e.pressed;
    }
  }

  /** Pressing F5 never sets bit 5 and leaves the encoder as it was. */
  lemma F5NeverSetsBit(e: Encoder)
    requires Valid(e) && 5 !in e.pressed
    ensures OnPress(e, F5).0 == e
    ensures !TestBit(GetState(OnPress(e, F5).0)[0] as int, 5)
  {
    KeyBitsCorrect(e.pressed, 5);
  }

  /** Press then release of a key not pressed before restores the encoder. */
  lemma PressReleaseRestores(e: Encoder, key: Key)
    requires Valid(e) && key != F5 && KeyIndex(key).Some? && KeyIndex(key).value !in e.pressed
    ensures OnRelease(OnPress(e, key).0, key) == e
  {
    var i := KeyIndex(key).value;
    assert e.pressed + {i} - {i} == e.pressed;
  }

  /** A press of a mapped key other than F5 adds exactly one to the pressed count, if not already pressed. */
  lemma PressCount(e: Encoder, key: Key)
    requires Valid(e) && key != F5 && KeyIndex(key).Some?
    ensures GetPressedCount(OnPress(e, key).0) == GetPressedCount(e) + (if KeyIndex(key).value in e.pressed then 0 else 1)
  {
    var i := KeyIndex(key).value;
    if i in e.pressed {
      assert e.pressed + {i} == e.pressed;
    }
  }
}

=== FILE: manager.dfy ===
/** The network manager: it owns the TCP handshake connection and, once the
    handshake succeeds, the video receiver (TCP port + 1), the parameter
    receiver (TCP port + 2) and the control sender (TCP port + 3), and it
    reports progress on the event bus. The handshake runs on its own thread
    in the system; here it runs to completion inside `Connect`, with its
    outcome given as an input. Whether each sub-component's socket could be
    set up is an input too. */
module NetworkManager {
  import opened Wrappers
  import opened Values
  import Config
  import Decimal
  import Events
  import TcpConn
  import Udp = UdpConn
  import CS = ControlSender
  import PP = ParamsPacket

  /** The parameter receiver, reduced to what the manager does with it. */
  datatype ParamsListener = ParamsListener(localPort: int, isRunning: bool)

  /** The fields of the shared application state the manager reads and writes. */
  datatype AppState = AppState(
    isConnected: bool,
    serverIp: string,
    serverPort: string,
    controlState: int,
    videoFrame: Option<seq<Bytes.byte>>,
    framesReceived: nat,
    latencyMs: real,
    streamParams: Option<PP.StreamParams>,
    clients: Option<seq<PP.ClientInfo>>,
    lastUpdateTime: real)

  datatype Manager = Manager(
    state: AppState,
    tcp: TcpConn.Conn,
    tcpUdpPort: Option<int>,
    udp: Option<Udp.Receiver>,
    params: Option<ParamsListener>,
    control: Option<CS.Sender>)

  /** Whether binding the video socket, binding the parameter socket and
      creating the control socket succeed. */
  datatype Env = Env(udpBindOk: bool, paramsBindOk: bool, controlSocketOk: bool)

  /** A message the manager writes on the TCP socket. */
  datatype Command =
    | Quality(jpegQuality: int, frameScale: real)
    | ImageAdjust(exposure: real, contrast: real, gamma: real)

  /** The manager installs every handshake hook. */
  const ALL_HOOKS: set<TcpConn.HookKind> :=
    {TcpConn.OnConnecting, TcpConn.OnSuccess, TcpConn.OnTimeout, TcpConn.OnRefused, TcpConn.OnError}

  function Pub(event: string, args: seq<Value>): Events.Publication
  {
    Events.Publication(event, args)
  }

  ghost predicate Valid(m: Manager)
  {
    && m.tcp.hooks == ALL_HOOKS
    && (m.control.Some? ==> CS.Valid(m.control.value))
  }

  function Init(): (m: Manager)
    ensures Valid(m) && !m.state.isConnected && !m.tcp.socketOpen
    ensures m.state.videoFrame.None? && m.state.framesReceived == 0 && LatencyInRange(m)
    ensures m.udp.None? && m.params.None? && m.control.None?
  {
    Manager(AppState(false, "", "", 0, None, 0, 0.0, None, None, 0.0),
            TcpConn.Init(Config.TCP_TIMEOUT, ALL_HOOKS), None, None, None, None)
  }

  /** The text of the ValueError `int()` raises on a malformed string. */
  function InvalidLiteral(s: string): string
  {
    "invalid literal for int() with base 10: '" + s + "'"
  }

  /** `_on_tcp_success`: mark connected, read the port back from the state,
      start the three sub-components on the derived ports and publish
      CONNECTED. When the stored port does not parse, `int()` raises after
      the state was already marked connected; the third component is then
      the exception text. */
  function OnTcpSuccess(m: Manager, env: Env): (r: (Manager, seq<Events.Publication>, Option<string>))
    requires Valid(m)
    ensures Valid(r.0) && r.0.state.isConnected && r.0.tcp == m.tcp
    ensures r.2.None? <==> Decimal.Parse(m.state.serverPort).Some?
    ensures r.2.Some? ==> r.0 == m.(state := m.state.(isConnected := true)) && r.1 == []
    ensures r.2.None? ==>
      var port := Decimal.Parse(m.state.serverPort).value;
      && r.1 == [Pub(Events.CONNECTED, [])]
      && r.0.udp.Some? && r.0.udp.value.localPort == port + Config.UDP_PORT_OFFSET
      && (r.0.udp.value.isRunning <==> env.udpBindOk)
      && r.0.params == Some(ParamsListener(port + Config.PARAMS_PORT_OFFSET, env.paramsBindOk))
      && r.0.control.Some? && r.0.control.value.controlPort == port + Config.CONTROL_PORT_OFFSET
      && r.0.control.value.serverIp == m.state.serverIp
      && (r.0.control.value.isRunning <==> env.controlSocketOk)
      && r.0.control.value.targetRate == Config.CONTROL_SEND_RATE
  {
    var m1 := m.(state := m.state.(isConnected := true));
    match Decimal.Parse(m1.state.serverPort)
    case None => (m1, [], Some(InvalidLiteral(m1.state.serverPort)))
    case Some(port) =>
      var udp := Udp.Start(Udp.Init(port + Config.UDP_PORT_OFFSET), env.udpBindOk);
      var params := ParamsListener(port + Config.PARAMS_PORT_OFFSET, env.paramsBindOk);
      var control := CS.Start(CS.Init(Config.CONTROL_SEND_RATE, true), m1.state.serverIp, port, env.controlSocketOk);
      (m1.(udp := Some(udp), params := Some(params), control := Some(control)),
       [Pub(Events.CONNECTED, [])], None)
  }

  /** What the manager's hook publishes for one hook call; `onSuccess` is
      what the success hook published. */
  function HookEffect(call: TcpConn.HookCall, onSuccess: seq<Events.Publication>): seq<Events.Publication>
  {
    match call
    case CallConnecting => [Pub(Events.CONNECTING, [])]
    case CallSuccess => onSuccess
    case CallTimeout => [Pub(Events.CONNECTION_ERROR, [VStr("timeout")])]
    case CallRefused => [Pub(Events.CONNECTION_ERROR, [VStr("refused")])]
    case CallError(msg) => [Pub(Events.CONNECTION_ERROR, [VStr(msg)])]
  }

  /** The publications of a sequence of hook calls, in order. */
  function Publications(calls: seq<TcpConn.HookCall>, onSuccess: seq<Events.Publication>): seq<Events.Publication>
  {
    if calls == [] then []
    else Publications(calls[..|calls| - 1], onSuccess) + HookEffect(calls[|calls| - 1], onSuccess)
  }

  /** `connect` followed by the handshake it starts: the address is recorded
      (the port as its decimal text), the handshake runs with the manager's
      hooks, and the success hook's state changes are kept when it ran. */
  function Connect(m: Manager, ip: string, port: int, outcome: TcpConn.ConnectOutcome, env: Env): (r: (Manager, seq<Events.Publication>))
    requires Valid(m)
    ensures Valid(r.0)
    ensures r.0.state.serverIp == ip && r.0.state.serverPort == Decimal.Show(port)
    ensures r.0.tcpUdpPort == Some(port + Config.UDP_PORT_OFFSET)
    ensures !r.0.tcp.socketOpen
    ensures |r.1| >= 1 && r.1[0] == Pub(Events.CONNECTING, [])
  {
    var m1 := m.(state := m.state.(serverIp := ip, serverPort := Decimal.Show(port)),
                 tcpUdpPort := Some(port + Config.UDP_PORT_OFFSET));
    var (m2, onSuccess, raises) := OnTcpSuccess(m1, env);
    var (tcp, calls) := TcpConn.Handshake(m1.tcp, outcome, raises);
    var pubs := Publications(calls, onSuccess);
    FirstPublication(calls, onSuccess);
    if outcome.Connected? && !outcome.recv.RecvFailed? then (m2.(tcp := tcp), pubs)
    else (m1.(tcp := tcp), pubs)
  }

  /** Hook calls that start with on_connecting publish CONNECTING first. */
  lemma FirstPublication(calls: seq<TcpConn.HookCall>, onSuccess: seq<Events.Publication>)
    requires |calls| >= 1 && calls[0] == TcpConn.CallConnecting
    ensures |Publications(calls, onSuccess)| >= 1 && Publications(calls, onSuccess)[0] == Pub(Events.CONNECTING, [])
  {
    assert calls == [calls[0]] + calls[1..];
    PublicationsAppend([calls[0]], calls[1..], onSuccess);
    assert [calls[0]][..0] == [];
  }

  lemma {:induction false} PublicationsAppend(a: seq<TcpConn.HookCall>, b: seq<TcpConn.HookCall>, onSuccess: seq<Events.Publication>)
    ensures Publications(a + b, onSuccess) == Publications(a, onSuccess) + Publications(b, onSuccess)
  {
    if b != [] {
      assert (a + b)[..|a + b| - 1] == a + b[..|b| - 1];
      PublicationsAppend(a, b[..|b| - 1], onSuccess);
    } else {
      assert a + b == a;
    }
  }

  lemma PublicationsPair(a: TcpConn.HookCall, b: TcpConn.HookCall, onSuccess: seq<Events.Publication>)
    ensures Publications([a, b], onSuccess) == HookEffect(a, onSuccess) + HookEffect(b, onSuccess)
  {
    assert [a, b][..1] == [a];
    assert [a][..0] == [];
    assert Publications([a], onSuccess) == HookEffect(a, onSuccess);
  }

  /** A successful handshake publishes CONNECTING then CONNECTED, leaves the
      manager and the handshake connection connected with the socket closed,
      and starts the sub-components on the ports derived from the requested
      port: the port text written by `connect` always parses back. */
  lemma ConnectSucceeds(m: Manager, ip: string, port: int, data: TcpConn.RecvOutcome, env: Env)
    requires Valid(m) && !data.RecvFailed?
    ensures var (m', pubs) := Connect(m, ip, port, TcpConn.Connected(data), env);
      && pubs == [Pub(Events.CONNECTING, []), Pub(Events.CONNECTED, [])]
      && m'.state.isConnected && m'.tcp.isConnected
      && m'.udp.Some? && m'.udp.value.localPort == port + 1
      && m'.params.Some? && m'.params.value.localPort == port + 2
      && m'.control.Some? && m'.control.value.controlPort == port + 3 && m'.control.value.serverIp == ip
  {
    Decimal.ParseShow(port);
    var m1 := m.(state := m.state.(serverIp := ip, serverPort := Decimal.Show(port)),
                 tcpUdpPort := Some(port + Config.UDP_PORT_OFFSET));
    var (m2, onSuccess, raises) := OnTcpSuccess(m1, env);
    assert raises.None? && onSuccess == [Pub(Events.CONNECTED, [])];
    var (tcp, calls) := TcpConn.Handshake(m1.tcp, TcpConn.Connected(data), raises);
    SucceededHandshake(m1.tcp, data);
    PublicationsPair(TcpConn.CallConnecting, TcpConn.CallSuccess, onSuccess);
    assert Connect(m, ip, port, TcpConn.Connected(data), env) == (m2.(tcp := tcp), Publications(calls, onSuccess));
  }

  /** With the manager's hooks, a handshake whose connect and receive succeed,
      and whose success hook returns, fires on_connecting then on_success and
      ends connected. */
  lemma SucceededHandshake(c: TcpConn.Conn, data: TcpConn.RecvOutcome)
    requires c.hooks == ALL_HOOKS && !data.RecvFailed?
    ensures TcpConn.Handshake(c, TcpConn.Connected(data), None).1 == [TcpConn.CallConnecting, TcpConn.CallSuccess]
    ensures TcpConn.Handshake(c, TcpConn.Connected(data), None).0.isConnected
  {
    TcpConn.HandshakeOutcome(c, TcpConn.Connected(data), None);
  }

  /** The CONNECTION_ERROR argument for a handshake that did not connect. */
  function FailureReason(outcome: TcpConn.ConnectOutcome): string
    requires !(outcome.Connected? && !outcome.recv.RecvFailed?)
  {
    match outcome
    case ConnectTimeout => "timeout"
    case ConnectRefused => "refused"
    case ConnectFailed(msg) => msg
    case Connected(recv) => recv.msg
  }

  /** The hook a failed handshake fires after on_connecting. */
  function FailureCall(outcome: TcpConn.ConnectOutcome): (call: TcpConn.HookCall)
    requires !(outcome.Connected? && !outcome.recv.RecvFailed?)
    ensures HookEffect(call, []) == [Pub(Events.CONNECTION_ERROR, [VStr(FailureReason(outcome))])]
  {
    match outcome
    case ConnectTimeout => TcpConn.CallTimeout
    case ConnectRefused => TcpConn.CallRefused
    case ConnectFailed(msg) => TcpConn.CallError(msg)
    case Connected(recv) => TcpConn.CallError(recv.msg)
  }

  /** With the manager's hooks, a failed handshake fires on_connecting and
      then the failure's hook, and ends disconnected. */
  lemma FailedHandshake(c: TcpConn.Conn, outcome: TcpConn.ConnectOutcome, raises: Option<string>)
    requires c.hooks == ALL_HOOKS && !(outcome.Connected? && !outcome.recv.RecvFailed?)
    ensures TcpConn.Handshake(c, outcome, raises).1 == [TcpConn.CallConnecting, FailureCall(outcome)]
    ensures !TcpConn.Handshake(c, outcome, raises).0.isConnected
  {
    TcpConn.HandshakeOutcome(c, outcome, raises);
  }

  /** A failed handshake publishes CONNECTING then one CONNECTION_ERROR with
      the reason, leaves the handshake connection disconnected, and starts
      nothing: the sub-components and the connected flag are as before. */
  lemma ConnectFails(m: Manager, ip: string, port: int, outcome: TcpConn.ConnectOutcome, env: Env)
    requires Valid(m) && !(outcome.Connected? && !outcome.recv.RecvFailed?)
    ensures var (m', pubs) := Connect(m, ip, port, outcome, env);
      && pubs == [Pub(Events.CONNECTING, []), Pub(Events.CONNECTION_ERROR, [VStr(FailureReason(outcome))])]
      && !m'.tcp.isConnected
      && m'.state.isConnected == m.state.isConnected
      && m'.udp == m.udp && m'.params == m.params && m'.control == m.control
  {
    var m1 := m.(state := m.state.(serverIp := ip, serverPort := Decimal.Show(port)),
                 tcpUdpPort := Some(port + Config.UDP_PORT_OFFSET));
    var (m2, onSuccess, raises) := OnTcpSuccess(m1, env);
    var (tcp, calls) := TcpConn.Handshake(m1.tcp, outcome, raises);
    FailedHandshake(m1.tcp, outcome, raises);
    var call := FailureCall(outcome);
    PublicationsPair(TcpConn.CallConnecting, call, onSuccess);
    assert HookEffect(call, onSuccess) == HookEffect(call, []);
    assert Connect(m, ip, port, outcome, env) == (m1.(tcp := tcp), Publications(calls, onSuccess));
  }

  /** `send_quality_settings`: the command is written only while the
      handshake socket is open. */
  function SendQuality(m: Manager, jpegQuality: int, frameScale: real): (r: Option<Command>)
    ensures r.Some? <==> m.tcp.socketOpen
    ensures r.Some? ==> r.value == Quality(jpegQuality, frameScale)
  {
    if m.tcp.socketOpen then Some(Quality(jpegQuality, frameScale)) else None
  }

  /** `send_image_adjustment`: likewise. */
  function SendImageAdjust(m: Manager, exposure: real, contrast: real, gamma: real): (r: Option<Command>)
    ensures r.Some? <==> m.tcp.socketOpen
    ensures r.Some? ==> r.value == ImageAdjust(exposure, contrast, gamma)
  {
    if m.tcp.socketOpen then Some(ImageAdjust(exposure, contrast, gamma)) else None
  }

  /** The handshake closes its socket on every path, so after `connect`
      neither setting command is ever written. */
  lemma NothingSentAfterConnect(m: Manager, ip: string, port: int, outcome: TcpConn.ConnectOutcome, env: Env,
                                jpegQuality: int, frameScale: real, exposure: real, contrast: real, gamma: real)
    requires Valid(m)
    ensures SendQuality(Connect(m, ip, port, outcome, env).0, jpegQuality, frameScale).None?
    ensures SendImageAdjust(Connect(m, ip, port, outcome, env).0, exposure, contrast, gamma).None?
  {
  }

  /** `_cleanup_connections`: every present sub-component is stopped and dropped. */
  function CleanupConnections(m: Manager): (r: Manager)
    ensures r.udp.None? && r.params.None? && r.control.None?
    ensures r.state == m.state && r.tcp == m.tcp && r.tcpUdpPort == m.tcpUdpPort
  {
    m.(udp := None, params := None, control := None)
  }

  /** `_on_tcp_disconnected`: not connected, control state forced to Not
      Ready, sub-components cleaned up, then DISCONNECTED and the control
      state change are published. */
  function OnTcpDisconnected(m: Manager): (r: (Manager, seq<Events.Publication>))
    requires Valid(m)
    ensures Valid(r.0)
    ensures !r.0.state.isConnected && r.0.state.controlState == 0
    ensures r.0.udp.None? && r.0.params.None? && r.0.control.None?
    ensures r.1 == [Pub(Events.DISCONNECTED, []), Pub(Events.CONTROL_STATE_CHANGED, [VInt(0)])]
  {
    var m1 := m.(state := m.state.(isConnected := false, controlState := 0));
    (CleanupConnections(m1),
     [Pub(Events.DISCONNECTED, []), Pub(Events.CONTROL_STATE_CHANGED, [VInt(0)])])
  }

  /** `disconnect`: not connected, the handshake connection cleaned up, the
      sub-components dropped; nothing is published. */
  function Disconnect(m: Manager): (r: Manager)
    requires Valid(m)
    ensures Valid(r)
    ensures !r.state.isConnected && !r.tcp.isConnected && !r.tcp.socketOpen
    ensures r.udp.None? && r.params.None? && r.control.None?
    ensures r.state.controlState == m.state.controlState && r.state.serverPort == m.state.serverPort
  {
    CleanupConnections(m.(state := m.state.(isConnected := false), tcp := TcpConn.Disconnect(m.tcp)))
  }

  lemma DisconnectIdempotent(m: Manager)
    requires Valid(m)
    ensures Disconnect(Disconnect(m)) == Disconnect(m)
  {
  }

  /** `_on_frame_received`: keep the frame for the renderer, count it, publish it. */
  function OnFrameReceived(m: Manager, frame: seq<Bytes.byte>): (r: (Manager, seq<Events.Publication>))
    ensures r.0.state.videoFrame == Some(frame)
    ensures r.0.state.framesReceived == m.state.framesReceived + 1
    ensures r.1 == [Pub(Events.FRAME_RECEIVED, [VFrame(frame)])]
    ensures r.0.udp == m.udp && r.0.control == m.control && r.0.tcp == m.tcp
  {
    (m.(state := m.state.(videoFrame := Some(frame), framesReceived := m.state.framesReceived + 1)),
     [Pub(Events.FRAME_RECEIVED, [VFrame(frame)])])
  }

  /** Frames delivered one after another: the state after each and every publication, in order. */
  function OnFrames(m: Manager, frames: seq<seq<Bytes.byte>>): (r: (Manager, seq<Events.Publication>))
    decreases |frames|
  {
    if frames == [] then (m, [])
    else
      var (m1, p1) := OnFrameReceived(m, frames[0]);
      var (m2, p2) := OnFrames(m1, frames[1..]);
      (m2, p1 + p2)
  }

  /** After any run of frames the count has grown by their number, the video
      frame is the last of them, and each was published once, in order. */
  lemma {:induction false} FramesCounted(m: Manager, frames: seq<seq<Bytes.byte>>)
    ensures var r := OnFrames(m, frames);
      && r.0.state.framesReceived == m.state.framesReceived + |frames|
      && r.0.state.videoFrame == (if frames == [] then m.state.videoFrame else Some(frames[|frames| - 1]))
      && |r.1| == |frames|
      && (forall i :: 0 <= i < |frames| ==> r.1[i] == Pub(Events.FRAME_RECEIVED, [VFrame(frames[i])]))
      && r.0.udp == m.udp && r.0.control == m.control && r.0.tcp == m.tcp
    decreases |frames|
  {
    if frames != [] {
      var (m1, p1) := OnFrameReceived(m, frames[0]);
      var rest := frames[1..];
      FramesCounted(m1, rest);
      assert forall i :: 1 <= i < |frames| ==> rest[i - 1] == frames[i];
      if rest != [] {
        assert rest[|rest| - 1] == frames[|frames| - 1];
      }
    }
  }

  /** The latency the manager reports: never negative and below 5000 ms. */
  predicate LatencyInRange(m: Manager)
  {
    0.0 <= m.state.latencyMs < 5000.0
  }

  /** Receiving parameters keeps the latency in range, whatever the server's
      timestamp and the clock say; receiving frames does not touch it. */
  lemma ParamsKeepLatencyInRange(m: Manager, stream: PP.StreamParams, clients: seq<PP.ClientInfo>, now: real,
                                 frame: seq<Bytes.byte>)
    requires LatencyInRange(m)
    ensures LatencyInRange(OnParamsReceived(m, stream, clients, now).0)
    ensures LatencyInRange(OnFrameReceived(m, frame).0)
  {
  }

  /** `_on_params_received` at clock time `now`: store the parameters and
      clients, stamp the update, and take the latency from the server's
      timestamp when it is positive and the latency lies strictly between 0
      and 5 seconds. */
  function OnParamsReceived(m: Manager, stream: PP.StreamParams, clients: seq<PP.ClientInfo>, now: real): (r: (Manager, seq<Events.Publication>))
    ensures r.0.state.streamParams == Some(stream) && r.0.state.clients == Some(clients)
    ensures r.0.state.lastUpdateTime == now
    ensures r.0.state.latencyMs != m.state.latencyMs ==>
      stream.timestamp > 0.0 && 0.0 < now - stream.timestamp < 5.0 && r.0.state.latencyMs == (now - stream.timestamp) * 1000.0
    ensures stream.timestamp > 0.0 && 0.0 < now - stream.timestamp < 5.0 ==> r.0.state.latencyMs == (now - stream.timestamp) * 1000.0
    ensures r.1 == [Pub(Events.PARAMS_RECEIVED, [VStream(stream), VClients(clients)])]
  {
    var st := m.state.(streamParams := Some(stream), clients := Some(clients), lastUpdateTime := now);
    var latency := now - stream.timestamp;
    var st' := if stream.timestamp > 0.0 && 0.0 < latency < 5.0 then st.(latencyMs := latency * 1000.0) else st;
    (m.(state := st'), [Pub(Events.PARAMS_RECEIVED, [VStream(stream), VClients(clients)])])
  }

  /** The statistics keys every call reports, whatever is running. */
  const DEFAULT_KEYS: set<string> := {
    "frames_received", "latency_ms", "recent_packet_loss_rate", "overall_packet_loss_rate",
    "total_packets_received", "total_packets_expected", "total_packets_lost",
    "total_frames_dropped", "buffer_size", "total_bytes_received",
    "current_bandwidth_mbps", "average_bandwidth_mbps", "peak_bandwidth_mbps", "bandwidth_history"}

  /** The counters reported as floating-point zeros; the other counters are integer zeros. */
  const REAL_ZERO_KEYS: set<string> := {
    "recent_packet_loss_rate", "overall_packet_loss_rate",
    "current_bandwidth_mbps", "average_bandwidth_mbps", "peak_bandwidth_mbps"}

  /** The default of one statistics key: the frame count and latency from the
      state, an empty bandwidth history, and zero for every counter. */
  function DefaultStat(m: Manager, k: string): Value
  {
    if k == "frames_received" then VInt(m.state.framesReceived)
    else if k == "latency_ms" then VReal(m.state.latencyMs)
    else if k == "bandwidth_history" then VList([])
    else if k in REAL_ZERO_KEYS then VReal(0.0)
    else VInt(0)
  }

  function DefaultStats(m: Manager): (r: map<string, Value>)
    ensures r.Keys == DEFAULT_KEYS
    ensures r["frames_received"] == VInt(m.state.framesReceived) && r["latency_ms"] == VReal(m.state.latencyMs)
    ensures r["total_packets_lost"] == VInt(0) && r["total_frames_dropped"] == VInt(0)
  {
    map k | k in DEFAULT_KEYS :: DefaultStat(m, k)
  }

  /** The control sender's statistics while it exists, else none. */
  function ControlStats(m: Manager): map<string, Value>
    requires Valid(m)
  {
    if m.control.Some? then CS.GetStatistics(m.control.value) else map[]
  }

  /** The video receiver's statistics `udpStats` while it exists, else none. */
  function VideoStats(m: Manager, udpStats: map<string, Value>): map<string, Value>
  {
    if m.udp.Some? then udpStats else map[]
  }

  /** `get_statistics`: the defaults, overridden by the video receiver's
      statistics (given as `udpStats`, since the receiver does not define
      them) and then by the control sender's. */
  function GetStatistics(m: Manager, udpStats: map<string, Value>): (r: map<string, Value>)
    requires Valid(m)
    ensures forall k :: k in r <==> k in DEFAULT_KEYS || k in VideoStats(m, udpStats) || k in ControlStats(m)
    ensures forall k :: k in ControlStats(m) ==> r[k] == ControlStats(m)[k]
    ensures forall k :: k in VideoStats(m, udpStats) && k !in ControlStats(m) ==> r[k] == VideoStats(m, udpStats)[k]
    ensures forall k :: k in DEFAULT_KEYS && k !in VideoStats(m, udpStats) && k !in ControlStats(m) ==> r[k] == DefaultStats(m)[k]
  {
    DefaultStats(m) + VideoStats(m, udpStats) + ControlStats(m)
  }

  /** With nothing running, the statistics are the defaults: zero counters,
      and the frame count and latency from the state. */
  lemma StatisticsWhenIdle(m: Manager, udpStats: map<string, Value>)
    requires Valid(m) && m.udp.None? && m.control.None?
    ensures GetStatistics(m, udpStats).Keys == DEFAULT_KEYS
    ensures GetStatistics(m, udpStats)["frames_received"] == VInt(m.state.framesReceived)
    ensures GetStatistics(m, udpStats)["total_packets_lost"] == VInt(0)
  {
    var d := DefaultStats(m);
    assert VideoStats(m, udpStats) == map[] && ControlStats(m) == map[];
    assert GetStatistics(m, udpStats) == d + map[] + map[];
    assert d + map[] + map[] == d;
  }
}

=== FILE: params_packet.dfy ===
/** The `PRM1` parameter packet: magic, big-endian 32-bit payload length,
    then the payload. The payload is JSON text; serialising and parsing it
    are parameters of this model (`serialize`, `parse`). */
module ParamsPacket {
  import opened Bytes
  import opened Wrappers

  /** "PRM1" in ASCII. */
  const MAGIC: seq<byte> := [0x50, 0x52, 0x4D, 0x31]
  const HEADER_SIZE: nat := 8

  /** The stream parameters the server reports. */
  datatype StreamParams = StreamParams(
    jpegQuality: int,
    frameScale: real,
    targetFps: int,
    actualFps: real,
    resolutionW: int,
    resolutionH: int,
    timestamp: real,
    exposure: real,
    contrast: real,
    gamma: real)

  /** One connected client as the server reports it. */
  datatype ClientInfo = ClientInfo(clientId: int, ip: string, tcpPort: int, udpPort: int, connectedTime: string)

  /** What a params packet carries. */
  datatype Params = Params(stream: StreamParams, clients: seq<ClientInfo>)

  /** `struct.pack('!I', n)` raises for a payload of 2^32 bytes or more. */
  datatype EncodeError = PayloadTooLong

  /** The framing of `ParamsPacket.encode` around an already serialised payload. */
  function EncodeFrame(payload: seq<byte>): (r: Result<seq<byte>, EncodeError>)
    ensures r.Success? <==> |payload| < TWO32
    ensures r.Success? ==> |r.value| == HEADER_SIZE + |payload|
  {
    if |payload| < TWO32 then Success(MAGIC + BE32(|payload|) + payload) else Failure(PayloadTooLong)
  }

  /** The framing part of `ParamsPacket.decode`: the payload bytes the header
      announces, cut short when fewer bytes are present (Python slicing). */
  function DecodeFrame(data: seq<byte>): (r: Option<seq<byte>>)
    ensures r.None? <==> |data| < HEADER_SIZE || data[..4] != MAGIC
    ensures r.Some? ==> |r.value| <= |data| - HEADER_SIZE
  {
    if |data| < HEADER_SIZE then None
    else if data[..4] != MAGIC then None
    else
      var declared := FromBE32(data[4..8]);
      var end := if HEADER_SIZE + declared <= |data| then HEADER_SIZE + declared else |data|;
      Some(data[HEADER_SIZE..end])
  }

  /** `ParamsPacket.encode`: serialise, then frame. */
  function Encode(p: Params, serialize: Params -> seq<byte>): (r: Result<seq<byte>, EncodeError>)
    ensures r.Success? <==> |serialize(p)| < TWO32
    ensures r.Success? ==> |r.value| >= HEADER_SIZE && r.value[..4] == MAGIC && r.value[HEADER_SIZE..] == serialize(p)
  {
    var payload := serialize(p);
    if |payload| < TWO32 then FrameLayout(payload); EncodeFrame(payload)
    else EncodeFrame(payload)
  }

  /** `ParamsPacket.decode`: every failure, from the header checks to the JSON
      parse (whose exceptions are caught), ends in None. */
  function Decode(data: seq<byte>, parse: seq<byte> -> Option<Params>): (r: Option<Params>)
    ensures DecodeFrame(data).None? ==> r.None?
  {
    match DecodeFrame(data)
    case None => None
    case Some(payload) => parse(payload)
  }

  /** The header of a framed payload: magic, then the payload length big-endian. */
  lemma FrameLayout(payload: seq<byte>)
    requires |payload| < TWO32
    ensures var r := EncodeFrame(payload).value;
      r[..4] == MAGIC && FromBE32(r[4..8]) == |payload| && r[HEADER_SIZE..] == payload
  {
    var r := EncodeFrame(payload).value;
    assert r[4..8] == BE32(|payload|);
    BE32RoundTrip(|payload|);
  }

  /** Unframing a framed payload gives back exactly that payload. */
  lemma FrameRoundTrip(payload: seq<byte>)
    requires |payload| < TWO32
    ensures DecodeFrame(EncodeFrame(payload).value) == Some(payload)
  {
    var r := EncodeFrame(payload).value;
    FrameLayout(payload);
    assert r[HEADER_SIZE..HEADER_SIZE + |payload|] == r[HEADER_SIZE..];
  }

  /** Bytes after the announced payload are ignored. */
  lemma TrailingBytesIgnored(payload: seq<byte>, extra: seq<byte>)
    requires |payload| < TWO32
    ensures DecodeFrame(EncodeFrame(payload).value + extra) == Some(payload)
  {
    var r := EncodeFrame(payload).value;
    FrameLayout(payload);
    assert (r + extra)[..4] == r[..4];
    assert (r + extra)[4..8] == r[4..8];
    assert (r + extra)[HEADER_SIZE..HEADER_SIZE + |payload|] == payload;
  }

  /** A length larger than what arrived yields the bytes that did arrive. */
  lemma ShortPayloadTruncated(data: seq<byte>)
    requires |data| >= HEADER_SIZE && data[..4] == MAGIC
    requires HEADER_SIZE + FromBE32(data[4..8]) > |data|
    ensures DecodeFrame(data) == Some(data[HEADER_SIZE..])
  {
    assert data[HEADER_SIZE..|data|] == data[HEADER_SIZE..];
  }

  /** With a parser that inverts the serialiser, decode inverts encode. */
  lemma RoundTrip(p: Params, serialize: Params -> seq<byte>, parse: seq<byte> -> Option<Params>)
    requires |serialize(p)| < TWO32
    requires parse(serialize(p)) == Some(p)
    ensures Decode(Encode(p, serialize).value, parse) == Some(p)
  {
    FrameRoundTrip(serialize(p));
  }
}

=== FILE: tcp_conn.dfy ===
/** The TCP handshake connection: connect once so the server learns the
    client's address, wait briefly for a reply, close the socket, and report
    the outcome through optional hooks. The socket calls are replaced by the
    outcome they produced; the hooks are named, and the hook installed for
    success may itself raise. */
module TcpConn {
  import opened Wrappers
  import opened Bytes

  /** The callbacks a connection may have installed. */
  datatype HookKind = OnConnecting | OnSuccess | OnTimeout | OnRefused | OnError

  /** One hook invocation, with its argument (the exception text for on_error). */
  datatype HookCall = CallConnecting | CallSuccess | CallTimeout | CallRefused | CallError(msg: string)

  /** What `recv(1024)` did after the connect: data (possibly empty), a timeout, or another failure. */
  datatype RecvOutcome = Received(data: seq<byte>) | RecvTimeout | RecvFailed(msg: string)

  /** What `connect` did: connected (followed by the receive), timed out,
      was refused, or failed with another exception. */
  datatype ConnectOutcome =
    | Connected(recv: RecvOutcome)
    | ConnectTimeout
    | ConnectRefused
    | ConnectFailed(msg: string)

  datatype Conn = Conn(socketOpen: bool, timeout: int, isConnected: bool, hooks: set<HookKind>)

  function Init(timeout: int, hooks: set<HookKind>): (c: Conn)
    ensures !c.socketOpen && !c.isConnected && c.timeout == timeout && c.hooks == hooks
  {
    Conn(false, timeout, false, hooks)
  }

  /** The call of hook `k`, when it is installed. */
  function Fire(c: Conn, k: HookKind, call: HookCall): (r: seq<HookCall>)
    ensures k in c.hooks ==> r == [call]
    ensures k !in c.hooks ==> r == []
  {
    if k in c.hooks then [call] else []
  }

  /** `close`: the socket, if any, is closed and dropped. */
  function Close(c: Conn): (r: Conn)
    ensures !r.socketOpen
    ensures r.isConnected == c.isConnected && r.hooks == c.hooks && r.timeout == c.timeout
  {
    c.(socketOpen := false)
  }

  /** `cleanup`: not connected, socket closed. */
  function Cleanup(c: Conn): (r: Conn)
    ensures !r.socketOpen && !r.isConnected
    ensures r.hooks == c.hooks && r.timeout == c.timeout
  {
    Close(c.(isConnected := false))
  }

  /** `disconnect`. */
  function Disconnect(c: Conn): (r: Conn)
    ensures !r.socketOpen && !r.isConnected
    ensures r.hooks == c.hooks && r.timeout == c.timeout
  {
    Cleanup(c)
  }

  /** An exception in the try block: the matching hook, then cleanup. */
  function Fail(c: Conn, k: HookKind, call: HookCall): (Conn, seq<HookCall>)
  {
    (Cleanup(c), Fire(c, k, call))
  }

  /** Whether a handshake ends connected: the connect succeeded, the receive
      did not fail, and the success hook, if installed, returned normally. */
  predicate Succeeds(c: Conn, outcome: ConnectOutcome, successRaises: Option<string>)
  {
    && outcome.Connected?
    && !outcome.recv.RecvFailed?
    && !(OnSuccess in c.hooks && successRaises.Some?)
  }

  /** `_do_handshake`. `successRaises` is the exception text when the
      success hook raises, which the generic handler catches. The result is
      the connection afterwards and the hook calls in order. */
  function Handshake(c: Conn, outcome: ConnectOutcome, successRaises: Option<string>): (r: (Conn, seq<HookCall>))
    ensures !r.0.socketOpen && r.0.hooks == c.hooks && r.0.timeout == c.timeout
    ensures r.0.isConnected <==> Succeeds(c, outcome, successRaises)
    ensures OnConnecting in c.hooks ==> |r.1| >= 1 && r.1[0] == CallConnecting
    ensures CallSuccess in r.1 <==> OnSuccess in c.hooks && outcome.Connected? && !outcome.recv.RecvFailed?
  {
    var start := Fire(c, OnConnecting, CallConnecting);
    var c1 := c.(socketOpen := true);
    match outcome
    case ConnectTimeout =>
      var (c2, calls) := Fail(c1, OnTimeout, CallTimeout); (c2, start + calls)
    case ConnectRefused =>
      var (c2, calls) := Fail(c1, OnRefused, CallRefused); (c2, start + calls)
    case ConnectFailed(msg) =>
      var (c2, calls) := Fail(c1, OnError, CallError(msg)); (c2, start + calls)
    case Connected(RecvFailed(msg)) =>
      var (c2, calls) := Fail(c1, OnError, CallError(msg)); (c2, start + calls)
    case Connected(_) =>
      var c2 := Close(c1).(isConnected := true);
      var ok := Fire(c2, OnSuccess, CallSuccess);
      if OnSuccess in c.hooks && successRaises.Some? then
        var (c3, calls) := Fail(c2, OnError, CallError(successRaises.value)); (c3, start + ok + calls)
      else (c2, start + ok)
  }

  /** Every handshake ends with the socket closed; it ends connected exactly
      when it succeeds; the connecting hook runs first; and the last call is
      the success hook on success and the hook matching the failure otherwise. */
  lemma HandshakeOutcome(c: Conn, outcome: ConnectOutcome, successRaises: Option<string>)
    requires c.hooks == {OnConnecting, OnSuccess, OnTimeout, OnRefused, OnError}
    ensures var (c', calls) := Handshake(c, outcome, successRaises);
      && !c'.socketOpen
      && c'.hooks == c.hooks && c'.timeout == c.timeout
      && (c'.isConnected <==> Succeeds(c, outcome, successRaises))
      && |calls| >= 2 && calls[0] == CallConnecting
      && (Succeeds(c, outcome, successRaises) ==> calls == [CallConnecting, CallSuccess])
      && (outcome.ConnectTimeout? ==> calls == [CallConnecting, CallTimeout])
      && (outcome.ConnectRefused? ==> calls == [CallConnecting, CallRefused])
      && (outcome.ConnectFailed? ==> calls == [CallConnecting, CallError(outcome.msg)])
      && (outcome.Connected? && outcome.recv.RecvFailed? ==> calls == [CallConnecting, CallError(outcome.recv.msg)])
      && (outcome.Connected? && !outcome.recv.RecvFailed? && successRaises.Some? ==>
            calls == [CallConnecting, CallSuccess, CallError(successRaises.value)])
  {
  }

  /** With no hooks installed a handshake reports nothing, whatever happens. */
  lemma SilentWithoutHooks(c: Conn, outcome: ConnectOutcome, successRaises: Option<string>)
    requires c.hooks == {}
    ensures Handshake(c, outcome, successRaises).1 == []
    ensures Handshake(c, outcome, successRaises).0.isConnected <==> outcome.Connected? && !outcome.recv.RecvFailed?
  {
  }

  /** The reply, if any, does not influence the handshake: data and a receive timeout lead to the same result. */
  lemma ReplyIgnored(c: Conn, data: seq<byte>, successRaises: Option<string>)
    ensures Handshake(c, Connected(Received(data)), successRaises) == Handshake(c, Connected(RecvTimeout), successRaises)
  {
  }

  /** Disconnecting twice is disconnecting once. */
  lemma DisconnectIdempotent(c: Conn)
    ensures Disconnect(Disconnect(c)) == Disconnect(c)
  {
  }
}

=== FILE: textbox.dfy ===
/** The single-line text input box: its editing keys, cursor movement and
    key-repeat bookkeeping. Key codes are the integers the UI loop delivers;
    clock readings are parameters. */
module TextBox {
  import opened Wrappers

  const KEY_HOME: int := 1
  const KEY_LEFT: int := 2
  const KEY_RIGHT: int := 3
  const KEY_END: int := 4
  const KEY_BACKSPACE: int := 8
  const KEY_ENTER: int := 13
  const KEY_ESC: int := 27
  const KEY_DELETE: int := 127
  const MAX_LENGTH: nat := 50
  /** Seconds without an arrow-key move after which the cursor counts as still. */
  const CURSOR_MOVE_TIMEOUT: real := 0.15

  datatype Box = Box(
    text: string,
    cursor: nat,
    focused: bool,
    enabled: bool,
    maxLength: nat,
    hasOnChange: bool,
    currentKey: Option<int>,
    keyPressTime: real,
    lastRepeatTime: real,
    keyJustPressed: bool,
    cursorMoving: bool,
    lastMoveTime: real,
    cursorVisible: bool,
    blinkTime: real)

  function Init(hasOnChange: bool): (b: Box)
    ensures b.text == [] && b.cursor == 0 && !b.focused && b.maxLength == MAX_LENGTH
  {
    Box("", 0, false, true, MAX_LENGTH, hasOnChange, None, 0.0, 0.0, false, false, 0.0, true, 0.0)
  }

  /** Python's `s[:n]` for n >= 0: the first n characters, or all of them. */
  function Take(s: string, n: nat): (r: string)
    ensures |r| == if n <= |s| then n else |s|
    ensures forall i :: 0 <= i < |r| ==> r[i] == s[i]
  {
    if n <= |s| then s[..n] else s
  }

  /** Python's `s[n:]` for n >= 0: everything after the first n characters. */
  function Drop(s: string, n: nat): (r: string)
    ensures |r| == if n <= |s| then |s| - n else 0
    ensures forall i :: 0 <= i < |r| ==> r[i] == s[n + i]
  {
    if n <= |s| then s[n..] else []
  }

  predicate IsPrintable(key: int)
  {
    32 <= key <= 126
  }

  /** Keys that act on press and repeat while held. */
  predicate IsRepeatable(key: int)
  {
    key == KEY_BACKSPACE || key == KEY_LEFT || key == KEY_RIGHT || key == KEY_DELETE || IsPrintable(key)
  }

  /** The cursor lies within the text. */
  predicate CursorInText(b: Box)
  {
    b.cursor <= |b.text|
  }

  function Edited(b: Box, text: string, cursor: nat): (Box, bool)
  {
    (b.(text := text, cursor := cursor), b.hasOnChange)
  }

  function Moved(b: Box, cursor: nat, now: real): (Box, bool)
  {
    (b.(cursor := cursor, cursorMoving := true, lastMoveTime := now), false)
  }

  /** `_process_key_action` at clock time `now`: the box afterwards and
      whether the text-change callback ran. */
  function ProcessKeyAction(b: Box, key: int, now: real): (r: (Box, bool))
    ensures CursorInText(b) ==> CursorInText(r.0)
    ensures |r.0.text| <= |b.text| || (|r.0.text| == |b.text| + 1 && |b.text| < b.maxLength)
    ensures r.0.maxLength == b.maxLength && r.0.focused == b.focused && r.0.currentKey == b.currentKey
    ensures r.1 ==> b.hasOnChange
    ensures !IsRepeatable(key) ==> r == (b, false)
    ensures key == KEY_LEFT || key == KEY_RIGHT ==> r.0.text == b.text && !r.1
    ensures key == KEY_LEFT ==> r.0.cursor == if b.cursor > 0 then b.cursor - 1 else 0
    ensures key == KEY_RIGHT ==> r.0.cursor == if b.cursor < |b.text| then b.cursor + 1 else b.cursor
    ensures key == KEY_DELETE ==> r.0.cursor == b.cursor
    ensures key == KEY_DELETE && b.cursor < |b.text| ==>
      |r.0.text| == |b.text| - 1 && r.0.text[..b.cursor] == b.text[..b.cursor] && r.0.text[b.cursor..] == b.text[b.cursor + 1..]
    ensures key == KEY_BACKSPACE && b.text != [] && 0 < b.cursor <= |b.text| ==>
      && r.0.cursor == b.cursor - 1 && |r.0.text| == |b.text| - 1
      && r.0.text[..b.cursor - 1] == b.text[..b.cursor - 1] && r.0.text[b.cursor - 1..] == b.text[b.cursor..]
    ensures key == KEY_BACKSPACE && (b.text == [] || b.cursor == 0) ==> r == (b, false)
    ensures IsPrintable(key) && |b.text| < b.maxLength && b.cursor <= |b.text| ==>
      && r.0.cursor == b.cursor + 1 && r.0.text == b.text[..b.cursor] + [key as char] + b.text[b.cursor..]
    ensures IsPrintable(key) && |b.text| >= b.maxLength ==> r == (b, false)
  {
    if key == KEY_BACKSPACE then
      if b.text != [] && b.cursor > 0 then
        Edited(b, Take(b.text, b.cursor - 1) + Drop(b.text, b.cursor), b.cursor - 1)
      else (b, false)
    else if key == KEY_LEFT then
      if b.cursor > 0 then Moved(b, b.cursor - 1, now) else (b, false)
    else if key == KEY_RIGHT then
      if b.cursor < |b.text| then Moved(b, b.cursor + 1, now) else (b, false)
    else if key == KEY_DELETE then
      if b.cursor < |b.text| then
        Edited(b, Take(b.text, b.cursor) + Drop(b.text, b.cursor + 1), b.cursor)
      else (b, false)
    else if IsPrintable(key) then
      if |b.text| < b.maxLength then
        Edited(b, Take(b.text, b.cursor) + [key as char] + Drop(b.text, b.cursor), b.cursor + 1)
      else (b, false)
    else (b, false)
  }

  /** `handle_key` at clock time `now`: the box afterwards and the return
      value (whether the key was consumed). */
  function HandleKey(b: Box, key: int, isPress: bool, now: real): (r: (Box, bool))
    ensures !b.focused || !b.enabled ==> r == (b, false)
    ensures b.focused && b.enabled && !isPress ==> r.1 && r.0.text == b.text && r.0.cursor == b.cursor
    ensures b.focused && b.enabled && !isPress ==>
      r.0.currentKey == (if b.currentKey == Some(key) then None else b.currentKey)
    ensures b.focused && b.enabled && isPress && (key == KEY_ENTER || key == KEY_ESC) ==>
      r == (b.(focused := false, currentKey := None), true)
    ensures b.focused && b.enabled && isPress && key == KEY_HOME ==> r == (b.(cursor := 0), true)
    ensures b.focused && b.enabled && isPress && key == KEY_END ==> r == (b.(cursor := |b.text|), true)
    ensures b.focused && b.enabled && isPress && IsRepeatable(key) ==>
      && r.1 && r.0.currentKey == Some(key) && r.0.keyJustPressed
      && r.0.text == ProcessKeyAction(b, key, now).0.text && r.0.cursor == ProcessKeyAction(b, key, now).0.cursor
    ensures r.1 <==> (b.focused && b.enabled &&
                      (!isPress || key in {KEY_ENTER, KEY_ESC, KEY_HOME, KEY_END} || IsRepeatable(key)))
    ensures !r.1 ==> r.0 == b
    ensures CursorInText(b) ==> CursorInText(r.0)
    ensures |b.text| <= b.maxLength ==> |r.0.text| <= b.maxLength
  {
    if !b.focused || !b.enabled then (b, false)
    else if !isPress then
      if b.currentKey == Some(key) then
        var b1 := b.(currentKey := None);
        if (key == KEY_LEFT || key == KEY_RIGHT) && now - b.lastMoveTime >= CURSOR_MOVE_TIMEOUT then
          (b1.(cursorMoving := false, blinkTime := 0.0, cursorVisible := true), true)
        else (b1, true)
      else (b, true)
    else if key == KEY_ENTER || key == KEY_ESC then
      (b.(focused := false, currentKey := None), true)
    else if key == KEY_HOME then
      (b.(cursor := 0), true)
    else if key == KEY_END then
      (b.(cursor := |b.text|), true)
    else if IsRepeatable(key) then
      var b1 := ProcessKeyAction(b, key, now).0;
      (b1.(currentKey := Some(key), keyPressTime := now, lastRepeatTime := now, keyJustPressed := true), true)
    else (b, false)
  }

  /** Typing a printable character and then backspace restores the text and the cursor. */
  lemma InsertThenBackspace(b: Box, key: int, now: real, later: real)
    requires IsPrintable(key) && |b.text| < b.maxLength && CursorInText(b)
    ensures var b1 := ProcessKeyAction(b, key, now).0;
      var b2 := ProcessKeyAction(b1, KEY_BACKSPACE, later).0;
      b2.text == b.text && b2.cursor == b.cursor
  {
    var c := b.cursor;
    var b1 := ProcessKeyAction(b, key, now).0;
    assert b1.cursor == c + 1 && b1.text == b.text[..c] + [key as char] + b.text[c..];
    assert b1.text[..c] == b.text[..c] && b1.text[c + 1..] == b.text[c..];
    var b2 := ProcessKeyAction(b1, KEY_BACKSPACE, later).0;
    assert b2.cursor == c && b2.text[..c] == b.text[..c] && b2.text[c..] == b.text[c..];
    assert b2.text == b2.text[..c] + b2.text[c..];
    assert b.text == b.text[..c] + b.text[c..];
  }

  /** Moving left and pressing delete edits the text as backspace does. */
  lemma LeftDeleteIsBackspace(b: Box, now: real, later: real)
    requires CursorInText(b) && b.cursor > 0
    ensures var viaLeft := ProcessKeyAction(ProcessKeyAction(b, KEY_LEFT, now).0, KEY_DELETE, later).0;
      var viaBack := ProcessKeyAction(b, KEY_BACKSPACE, later).0;
      viaLeft.text == viaBack.text && viaLeft.cursor == viaBack.cursor
  {
    var viaLeft := ProcessKeyAction(ProcessKeyAction(b, KEY_LEFT, now).0, KEY_DELETE, later).0;
    var viaBack := ProcessKeyAction(b, KEY_BACKSPACE, later).0;
    assert viaLeft.text == viaLeft.text[..b.cursor - 1] + viaLeft.text[b.cursor - 1..];
    assert viaBack.text == viaBack.text[..b.cursor - 1] + viaBack.text[b.cursor - 1..];
  }

  /** Right then left returns the cursor to where it was, away from the end of the text. */
  lemma RightLeftRestores(b: Box, now: real, later: real)
    requires b.cursor < |b.text|
    ensures ProcessKeyAction(ProcessKeyAction(b, KEY_RIGHT, now).0, KEY_LEFT, later).0.cursor == b.cursor
  {
  }

  /** A full box ignores printable keys, however many arrive. */
  lemma {:induction false} FullBoxIgnoresTyping(b: Box, keys: seq<int>, now: real)
    requires |b.text| >= b.maxLength
    requires forall i :: 0 <= i < |keys| ==> IsPrintable(keys[i])
    ensures TypeAll(b, keys, now) == b
  {
    if keys != [] {
      FullBoxIgnoresTyping(b, keys[..|keys| - 1], now);
    }
  }

  /** Printable keys processed one after another. */
  function TypeAll(b: Box, keys: seq<int>, now: real): (r: Box)
    ensures |r.text| <= |b.text| + |keys|
    ensures r.maxLength == b.maxLength
  {
    if keys == [] then b else ProcessKeyAction(TypeAll(b, keys[..|keys| - 1], now), keys[|keys| - 1], now).0
  }

  /** The characters of printable key codes. */
  function Chars(keys: seq<int>): (s: string)
    requires forall i :: 0 <= i < |keys| ==> IsPrintable(keys[i])
    ensures |s| == |keys|
    ensures forall i :: 0 <= i < |keys| ==> s[i] as int == keys[i]
  {
    if keys == [] then []
    else
      var last := keys[|keys| - 1];
      assert IsPrintable(last);
      Chars(keys[..|keys| - 1]) + [last as char]
  }

  /** From an empty box with the cursor at 0, typing printable keys yields
      their characters, up to the length limit, with the cursor at the end. */
  lemma {:induction false} TypingAppends(b: Box, keys: seq<int>, now: real)
    requires b.text == [] && b.cursor == 0 && |keys| <= b.maxLength
    requires forall i :: 0 <= i < |keys| ==> IsPrintable(keys[i])
    ensures TypeAll(b, keys, now).text == Chars(keys)
    ensures TypeAll(b, keys, now).cursor == |keys|
  {
    if keys != [] {
      var init := keys[..|keys| - 1];
      TypingAppends(b, init, now);
      var prev := TypeAll(b, init, now);
      assert prev.text[..prev.cursor] == prev.text;
      assert prev.text[prev.cursor..] == [];
      assert |prev.text| < prev.maxLength;
      assert TypeAll(b, keys, now) == ProcessKeyAction(prev, keys[|keys| - 1], now).0;
    }
  }

  /** Any sequence of key events keeps the cursor within the text and the text within the length limit. */
  lemma {:induction false} HandleKeysInvariant(b: Box, events: seq<(int, bool, real)>)
    requires CursorInText(b) && |b.text| <= b.maxLength
    ensures CursorInText(HandleAll(b, events)) && |HandleAll(b, events).text| <= b.maxLength
    ensures HandleAll(b, events).maxLength == b.maxLength
  {
    if events != [] {
      HandleKeysInvariant(b, events[..|events| - 1]);
    }
  }

  /** Key events handled one after another. */
  function HandleAll(b: Box, events: seq<(int, bool, real)>): Box
  {
    if events == [] then b
    else
      var e := events[|events| - 1];
      HandleKey(HandleAll(b, events[..|events| - 1]), e.0, e.1, e.2).0
  }
}

=== FILE: udp_conn.dfy ===
/** The video receiver: the 8-byte big-endian fragment header and the
    reassembly buffer keyed by frame id, then by fragment index. The socket
    loop is a step function taking one datagram; JPEG decoding is the
    parameter `decodes`, true of the bytes it can turn into an image. */
module UdpConn {
  import opened Bytes
  import opened Wrappers

  const HEADER_SIZE: nat := 8

  /** One datagram: frame id (32 bits), fragment index and fragment count (16 bits each), payload. */
  datatype Fragment = Fragment(frameId: nat, index: nat, total: nat, payload: seq<byte>)

  ghost predicate Encodable(f: Fragment)
  {
    f.frameId < TWO32 && f.index < TWO16 && f.total < TWO16
  }

  /** The header parse of the receive loop; None for a datagram shorter than the header. */
  function ParseFragment(data: seq<byte>): (r: Option<Fragment>)
    ensures r.None? <==> |data| < HEADER_SIZE
    ensures r.Some? ==> Encodable(r.value) && |r.value.payload| == |data| - HEADER_SIZE
  {
    if |data| < HEADER_SIZE then None
    else Some(Fragment(FromBE32(data[0..4]), FromBE16(data[4..6]), FromBE16(data[6..8]), data[8..]))
  }

  /** The sender's side of the format. */
  function EncodeFragment(f: Fragment): (r: seq<byte>)
    requires Encodable(f)
    ensures |r| == HEADER_SIZE + |f.payload|
  {
    BE32(f.frameId) + BE16(f.index) + BE16(f.total) + f.payload
  }

  lemma FragmentRoundTrip(f: Fragment)
    requires Encodable(f)
    ensures ParseFragment(EncodeFragment(f)) == Some(f)
  {
    var d := EncodeFragment(f);
    assert d[0..4] == BE32(f.frameId) && d[4..6] == BE16(f.index) && d[6..8] == BE16(f.total);
    BE32RoundTrip(f.frameId);
    BE16RoundTrip(f.index);
    BE16RoundTrip(f.total);
  }

  lemma DatagramRoundTrip(data: seq<byte>)
    requires |data| >= HEADER_SIZE
    ensures EncodeFragment(ParseFragment(data).value) == data
  {
    FromBE32RoundTrip(data[0..4]);
    FromBE16RoundTrip(data[4..6]);
    FromBE16RoundTrip(data[6..8]);
    assert data == data[0..4] + data[4..6] + data[6..8] + data[8..];
  }

  /** Payloads of one frame, by fragment index. */
  type FrameBuffer = map<nat, seq<byte>>

  datatype Receiver = Receiver(
    localPort: int,
    isRunning: bool,
    buffer: map<nat, FrameBuffer>,
    currentFrame: Option<seq<byte>>,
    totalPacketsReceived: nat,
    totalFramesReceived: nat)

  function Init(localPort: int): (r: Receiver)
    ensures r.buffer == map[] && r.totalPacketsReceived == 0 && r.totalFramesReceived == 0
  {
    Receiver(localPort, false, map[], None, 0, 0)
  }

  /** `start`: `bindOk` is whether binding the socket succeeded; a running receiver is left alone. */
  function Start(r: Receiver, bindOk: bool): (r': Receiver)
    ensures r.isRunning ==> r' == r
    ensures !r.isRunning ==> r' == r.(isRunning := bindOk)
  {
    if r.isRunning then r else r.(isRunning := bindOk)
  }

  /** `stop`. */
  function Stop(r: Receiver): (r': Receiver)
    ensures !r'.isRunning && r' == r.(isRunning := false)
  {
    r.(isRunning := false)
  }

  /** Once a start has brought the receiver up, starting again changes nothing. */
  lemma StartIdempotent(r: Receiver, bindOk: bool, bindOk': bool)
    requires r.isRunning || bindOk
    ensures Start(Start(r, bindOk), bindOk') == Start(r, bindOk)
  {
  }

  /** Stopping undoes starting, whether or not the bind succeeded, and a
      stopped receiver restarts exactly when the new bind succeeds. */
  lemma StopUndoesStart(r: Receiver, bindOk: bool)
    ensures Stop(Start(r, bindOk)) == Stop(r)
    ensures Start(Stop(r), bindOk) == r.(isRunning := bindOk)
  {
  }

  /** Concatenation of a sequence of byte strings, first to last. */
  function Concat(parts: seq<seq<byte>>): (r: seq<byte>)
  {
    if parts == [] then [] else Concat(parts[..|parts| - 1]) + parts[|parts| - 1]
  }

  /** The payloads of indices 0 .. n-1, in ascending order. */
  function InOrder(m: FrameBuffer, n: nat): (r: seq<seq<byte>>)
    requires forall i :: 0 <= i < n ==> i in m
    ensures |r| == n && forall i :: 0 <= i < n ==> r[i] == m[i]
  {
    seq(n, i requires 0 <= i < n => m[i])
  }

  /** `_reassemble_frame`: None when an index below n is missing, else the
      payloads of indices 0 .. n-1 concatenated in ascending order. */
  function Reassemble(m: FrameBuffer, n: nat): (r: Option<seq<byte>>)
    ensures r.Some? <==> forall i :: 0 <= i < n ==> i in m
    ensures r.Some? ==> r.value == Concat(InOrder(m, n))
  {
    if n == 0 then Some([])
    else
      match Reassemble(m, n - 1)
      case None => None
      case Some(prefix) =>
        if n - 1 in m then
          assert InOrder(m, n)[..n - 1] == InOrder(m, n - 1);
          Some(prefix + m[n - 1])
        else None
  }

  function FrameOf(r: Receiver, id: nat): FrameBuffer
  {
    if id in r.buffer then r.buffer[id] else map[]
  }

  /** The buffer update of the receive loop for one parsed fragment: store the
      payload (a repeated index overwrites); when the number of distinct
      indices equals the fragment count, reassemble, decode, count and emit
      the frame on success, and drop the frame's buffer in every case. */
  function Accept(r: Receiver, f: Fragment, decodes: seq<byte> -> bool): (res: (Receiver, Option<seq<byte>>))
    ensures res.0.totalPacketsReceived == r.totalPacketsReceived + 1
    ensures forall id :: id != f.frameId ==> (id in res.0.buffer <==> id in r.buffer)
    ensures forall id :: id != f.frameId && id in r.buffer ==> res.0.buffer[id] == r.buffer[id]
    ensures f.frameId in res.0.buffer <==> |FrameOf(r, f.frameId)[f.index := f.payload]| != f.total
    ensures f.frameId in res.0.buffer ==> res.0.buffer[f.frameId] == FrameOf(r, f.frameId)[f.index := f.payload] && res.1.None?
    ensures res.1.Some? <==>
      && |FrameOf(r, f.frameId)[f.index := f.payload]| == f.total
      && Reassemble(FrameOf(r, f.frameId)[f.index := f.payload], f.total).Some?
      && Reassemble(FrameOf(r, f.frameId)[f.index := f.payload], f.total).value != []
      && decodes(Reassemble(FrameOf(r, f.frameId)[f.index := f.payload], f.total).value)
    ensures res.1.Some? ==> res.1.value == Concat(InOrder(FrameOf(r, f.frameId)[f.index := f.payload], f.total))
    ensures res.0.totalFramesReceived == r.totalFramesReceived + (if res.1.Some? then 1 else 0)
    ensures res.1.Some? ==> res.0.currentFrame == res.1
    ensures res.1.None? ==> res.0.currentFrame == r.currentFrame
  {
    var frame := FrameOf(r, f.frameId)[f.index := f.payload];
    var r1 := r.(totalPacketsReceived := r.totalPacketsReceived + 1, buffer := r.buffer[f.frameId := frame]);
    if |frame| == f.total then
      var data := Reassemble(frame, f.total);
      if data.Some? && data.value != [] && decodes(data.value) then
        (r1.(buffer := r1.buffer - {f.frameId}, currentFrame := data,
             totalFramesReceived := r.totalFramesReceived + 1), data)
      else
        (r1.(buffer := r1.buffer - {f.frameId}), None)
    else (r1, None)
  }

  /** One datagram through the receive loop: too short to hold a header, it is
      ignored; otherwise its header is parsed and the fragment accepted. */
  function Receive(r: Receiver, data: seq<byte>, decodes: seq<byte> -> bool): (res: (Receiver, Option<seq<byte>>))
    ensures |data| < HEADER_SIZE ==> res == (r, None)
    ensures |data| >= HEADER_SIZE ==> res == Accept(r, ParseFragment(data).value, decodes)
  {
    match ParseFragment(data)
    case None => (r, None)
    case Some(f) => Accept(r, f, decodes)
  }

  /** Sending a fragment over the wire and receiving it is accepting it. */
  lemma ReceiveEncoded(r: Receiver, f: Fragment, decodes: seq<byte> -> bool)
    requires Encodable(f)
    ensures Receive(r, EncodeFragment(f), decodes) == Accept(r, f, decodes)
  {
    FragmentRoundTrip(f);
  }

  /** A repeated index replaces the stored payload and adds no distinct index. */
  lemma DuplicateOverwrites(r: Receiver, f: Fragment, decodes: seq<byte> -> bool)
    requires f.frameId in r.buffer && f.index in r.buffer[f.frameId]
    requires |r.buffer[f.frameId]| != f.total
    ensures var r' := Accept(r, f, decodes).0;
      && f.frameId in r'.buffer
      && r'.buffer[f.frameId].Keys == r.buffer[f.frameId].Keys
      && r'.buffer[f.frameId][f.index] == f.payload
  {
    var m := r.buffer[f.frameId];
    assert m[f.index := f.payload].Keys == m.Keys;
  }

  /** A frame announcing zero fragments never completes: after any insert its buffer holds at least one index. */
  lemma ZeroTotalNeverCompletes(r: Receiver, f: Fragment, decodes: seq<byte> -> bool)
    requires f.total == 0
    ensures var res := Accept(r, f, decodes);
      f.frameId in res.0.buffer && res.1.None? && res.0.totalFramesReceived == r.totalFramesReceived
  {
    var frame := FrameOf(r, f.frameId)[f.index := f.payload];
    assert f.index in frame;
  }

  /** The receiver after a sequence of fragments, with the frames it emitted in order. */
  function Run(r: Receiver, frags: seq<Fragment>, decodes: seq<byte> -> bool): (res: (Receiver, seq<seq<byte>>))
    ensures res.0.totalPacketsReceived == r.totalPacketsReceived + |frags|
  {
    if frags == [] then (r, [])
    else
      var (r1, out) := Run(r, frags[..|frags| - 1], decodes);
      var (r2, e) := Accept(r1, frags[|frags| - 1], decodes);
      (r2, out + (if e.Some? then [e.value] else []))
  }

  /** Elements of a sequence, without repetition. */
  ghost predicate Distinct(s: seq<nat>)
  {
    forall j, k :: 0 <= j < k < |s| ==> s[j] != s[k]
  }

  /** The set of elements of a sequence. */
  function Elems(s: seq<nat>): (r: set<nat>)
    ensures forall x :: x in r <==> x in s
  {
    if s == [] then {} else Elems(s[..|s| - 1]) + {s[|s| - 1]}
  }

  lemma {:induction false} DistinctCard(s: seq<nat>)
    requires Distinct(s)
    ensures |Elems(s)| == |s|
  {
    if s != [] {
      var t, x := s[..|s| - 1], s[|s| - 1];
      assert Distinct(t);
      DistinctCard(t);
    }
  }

  /** The fragments of frame `id` with fragment count n, in the given index order. */
  function Fragments(id: nat, n: nat, order: seq<nat>, payload: nat -> seq<byte>): (r: seq<Fragment>)
    ensures |r| == |order|
    ensures forall j :: 0 <= j < |order| ==> r[j] == Fragment(id, order[j], n, payload(order[j]))
  {
    seq(|order|, j requires 0 <= j < |order| => Fragment(id, order[j], n, payload(order[j])))
  }

  /** The payloads of all n fragments, concatenated in index order. */
  function FullFrame(n: nat, payload: nat -> seq<byte>): seq<byte>
  {
    Concat(seq(n, i requires 0 <= i => payload(i)))
  }

  /** An accepted fragment that does not complete its frame is only stored. */
  lemma AcceptStores(r: Receiver, f: Fragment, decodes: seq<byte> -> bool)
    requires |FrameOf(r, f.frameId)[f.index := f.payload]| != f.total
    ensures Accept(r, f, decodes) ==
      (r.(totalPacketsReceived := r.totalPacketsReceived + 1,
          buffer := r.buffer[f.frameId := FrameOf(r, f.frameId)[f.index := f.payload]]), None)
  {
  }

  /** The receiver after fragments of frame `id` whose indices are `seen`
      were stored, starting from `r0`, where that frame had no buffer. */
  ghost predicate Stored(r0: Receiver, r: Receiver, id: nat, seen: set<nat>, payload: nat -> seq<byte>)
  {
    && (seen != {} ==> id in r.buffer && r.buffer[id].Keys == seen)
    && (seen == {} ==> id !in r.buffer)
    && (id in r.buffer ==> forall i :: i in r.buffer[id] ==> r.buffer[id][i] == payload(i))
    && (forall x :: x != id ==> (x in r.buffer <==> x in r0.buffer))
    && (forall x :: x != id && x in r0.buffer ==> r.buffer[x] == r0.buffer[x])
    && r.totalFramesReceived == r0.totalFramesReceived
    && r.currentFrame == r0.currentFrame
  }

  /** Storing one more fragment of the frame, at a new index, without completing it. */
  lemma StoredStep(r0: Receiver, r: Receiver, id: nat, seen: set<nat>, payload: nat -> seq<byte>,
                   f: Fragment, decodes: seq<byte> -> bool)
    requires Stored(r0, r, id, seen, payload)
    requires f.frameId == id && f.payload == payload(f.index) && f.index !in seen
    requires |seen| + 1 != f.total
    ensures Accept(r, f, decodes).1.None?
    ensures Stored(r0, Accept(r, f, decodes).0, id, seen + {f.index}, payload)
  {
    var frame := FrameOf(r, id)[f.index := f.payload];
    assert frame.Keys == seen + {f.index};
    AcceptStores(r, f, decodes);
    StoredInsert(r0, r, id, seen, payload, f.index);
  }

  /** Storing the payload of a new index keeps the stored-fragments invariant. */
  lemma StoredInsert(r0: Receiver, r: Receiver, id: nat, seen: set<nat>, payload: nat -> seq<byte>, i: nat)
    requires Stored(r0, r, id, seen, payload)
    ensures Stored(r0, r.(totalPacketsReceived := r.totalPacketsReceived + 1,
                          buffer := r.buffer[id := FrameOf(r, id)[i := payload(i)]]), id, seen + {i}, payload)
  {
  }

  /** One more fragment at the end of a delivery order. */
  lemma {:induction false} RunSnoc(r: Receiver, id: nat, n: nat, order: seq<nat>, payload: nat -> seq<byte>,
                                   decodes: seq<byte> -> bool)
    requires order != []
    ensures var k := |order|;
      var prev := Run(r, Fragments(id, n, order[..k - 1], payload), decodes);
      var last := Accept(prev.0, Fragment(id, order[k - 1], n, payload(order[k - 1])), decodes);
      Run(r, Fragments(id, n, order, payload), decodes) == (last.0, prev.1 + (if last.1.Some? then [last.1.value] else []))
  {
    var k := |order|;
    var frags := Fragments(id, n, order, payload);
    assert frags[..k - 1] == Fragments(id, n, order[..k - 1], payload);
  }

  /** The last element of a sequence without repetition is not among the others. */
  lemma DistinctLast(s: seq<nat>)
    requires Distinct(s) && s != []
    ensures s[|s| - 1] !in Elems(s[..|s| - 1])
  {
  }

  /** One more fragment of a frame that still does not complete it. */
  lemma PartialStep(r: Receiver, id: nat, n: nat, pre: seq<nat>, payload: nat -> seq<byte>,
                    decodes: seq<byte> -> bool)
    requires pre != [] && |pre| != n
    requires pre[|pre| - 1] !in Elems(pre[..|pre| - 1])
    requires |Elems(pre[..|pre| - 1])| == |pre| - 1
    requires Run(r, Fragments(id, n, pre[..|pre| - 1], payload), decodes).1 == []
    requires Stored(r, Run(r, Fragments(id, n, pre[..|pre| - 1], payload), decodes).0, id, Elems(pre[..|pre| - 1]), payload)
    ensures Run(r, Fragments(id, n, pre, payload), decodes).1 == []
    ensures Stored(r, Run(r, Fragments(id, n, pre, payload), decodes).0, id, Elems(pre), payload)
  {
    var k := |pre|;
    RunSnoc(r, id, n, pre, payload, decodes);
    var prev := Run(r, Fragments(id, n, pre[..k - 1], payload), decodes);
    StoredStep(r, prev.0, id, Elems(pre[..k - 1]), payload, Fragment(id, pre[k - 1], n, payload(pre[k - 1])), decodes);
  }

  /** Before the last fragment of a frame arrives, its buffer holds exactly
      the indices seen so far, no frame is emitted, and other frames' buffers
      are untouched. */
  lemma {:induction false} PartialDelivery(r: Receiver, id: nat, n: nat, order: seq<nat>, payload: nat -> seq<byte>,
                                           decodes: seq<byte> -> bool, k: nat)
    requires id !in r.buffer && Distinct(order) && |order| == n && k < n
    ensures Run(r, Fragments(id, n, order[..k], payload), decodes).1 == []
    ensures Stored(r, Run(r, Fragments(id, n, order[..k], payload), decodes).0, id, Elems(order[..k]), payload)
  {
    if k == 0 {
      assert Fragments(id, n, order[..k], payload) == [];
    } else {
      PartialDelivery(r, id, n, order, payload, decodes, k - 1);
      PrefixFacts(order, k);
      PartialStep(r, id, n, order[..k], payload, decodes);
    }
  }

  /** A non-empty prefix of an order without repetition: its last index is
      new, and the indices before it are as many as their positions. */
  lemma PrefixFacts(order: seq<nat>, k: nat)
    requires Distinct(order) && 0 < k <= |order|
    ensures order[..k][..k - 1] == order[..k - 1]
    ensures order[..k][k - 1] !in Elems(order[..k][..k - 1])
    ensures |Elems(order[..k][..k - 1])| == k - 1
  {
    var pre := order[..k];
    assert pre[..k - 1] == order[..k - 1];
    assert Distinct(pre);
    DistinctLast(pre);
    DistinctCard(pre[..k - 1]);
  }

  /** A buffer whose indices are exactly 0 .. n-1 holds n payloads. */
  lemma {:induction false} RangeKeysCard(m: FrameBuffer, n: nat)
    requires forall i :: 0 <= i < n <==> i in m
    ensures |m| == n
  {
    if n > 0 {
      var m' := m - {n - 1};
      RangeKeysCard(m', n - 1);
      assert m.Keys == m'.Keys + {n - 1};
    } else {
      assert m.Keys == {};
    }
  }

  /** A buffer holding payload(i) at exactly the indices 0 .. n-1 is complete
      and reassembles to the payloads concatenated in index order. */
  lemma FullBuffer(m: FrameBuffer, n: nat, payload: nat -> seq<byte>)
    requires forall i :: i in m <==> 0 <= i < n
    requires forall i :: i in m ==> m[i] == payload(i)
    ensures |m| == n && Reassemble(m, n) == Some(FullFrame(n, payload))
  {
    RangeKeysCard(m, n);
    assert InOrder(m, n) == seq(n, i requires 0 <= i => payload(i));
  }

  /** An accepted fragment that brings its frame to the announced count ends
      the frame's buffer, emitting the reassembled data when it is non-empty
      and decodes. */
  lemma AcceptCompletes(r: Receiver, f: Fragment, decodes: seq<byte> -> bool, data: seq<byte>)
    requires |FrameOf(r, f.frameId)[f.index := f.payload]| == f.total
    requires Reassemble(FrameOf(r, f.frameId)[f.index := f.payload], f.total) == Some(data)
    ensures var res := Accept(r, f, decodes);
      && res.0.buffer == r.buffer - {f.frameId}
      && res.1 == (if data != [] && decodes(data) then Some(data) else None)
      && res.0.totalFramesReceived == r.totalFramesReceived + (if res.1.Some? then 1 else 0)
  {
  }

  /** The fragment that brings a frame's buffer to all n indices completes
      it: the frame is emitted exactly when its payloads, concatenated in index
      order, are non-empty and decode, and the buffer is dropped either way. */
  lemma CompleteStep(r0: Receiver, r: Receiver, id: nat, n: nat, seen: set<nat>, all: set<nat>,
                     payload: nat -> seq<byte>, f: Fragment, decodes: seq<byte> -> bool)
    requires Stored(r0, r, id, seen, payload)
    requires f.frameId == id && f.total == n && f.payload == payload(f.index)
    requires all == seen + {f.index} && forall i :: i in all <==> 0 <= i < n
    ensures var res := Accept(r, f, decodes);
      && id !in res.0.buffer
      && res.1 == (if FullFrame(n, payload) != [] && decodes(FullFrame(n, payload)) then Some(FullFrame(n, payload)) else None)
      && (forall x :: x != id ==> (x in res.0.buffer <==> x in r0.buffer))
      && (forall x :: x != id && x in r0.buffer ==> res.0.buffer[x] == r0.buffer[x])
      && res.0.totalFramesReceived == r0.totalFramesReceived + (if res.1.Some? then 1 else 0)
  {
    var frame := FrameOf(r, id)[f.index := f.payload];
    assert frame.Keys == all;
    FullBuffer(frame, n, payload);
    AcceptCompletes(r, f, decodes, FullFrame(n, payload));
  }

  /** The last fragment of a frame after all the others were stored. */
  lemma FinalStep(r: Receiver, id: nat, n: nat, order: seq<nat>, payload: nat -> seq<byte>,
                  decodes: seq<byte> -> bool)
    requires order != [] && |order| == n
    requires forall i :: i in Elems(order) <==> 0 <= i < n
    requires Run(r, Fragments(id, n, order[..n - 1], payload), decodes).1 == []
    requires Stored(r, Run(r, Fragments(id, n, order[..n - 1], payload), decodes).0, id, Elems(order[..n - 1]), payload)
    ensures var res := Run(r, Fragments(id, n, order, payload), decodes);
      && id !in res.0.buffer
      && res.1 == (if FullFrame(n, payload) != [] && decodes(FullFrame(n, payload)) then [FullFrame(n, payload)] else [])
      && (forall x :: x != id ==> (x in res.0.buffer <==> x in r.buffer))
      && (forall x :: x != id && x in r.buffer ==> res.0.buffer[x] == r.buffer[x])
      && res.0.totalFramesReceived == r.totalFramesReceived + |res.1|
  {
    RunSnoc(r, id, n, order, payload, decodes);
    var prev := Run(r, Fragments(id, n, order[..n - 1], payload), decodes);
    var f := Fragment(id, order[n - 1], n, payload(order[n - 1]));
    var seen, all := Elems(order[..n - 1]), Elems(order);
    assert all == seen + {f.index};
    assert Stored(r, prev.0, id, seen, payload);
    CompleteStep(r, prev.0, id, n, seen, all, payload, f, decodes);
  }

  /** Delivering all n >= 1 fragments of a frame, in any order, emits exactly
      one frame, the payloads concatenated in ascending index order, when that
      is non-empty and decodes, and none otherwise; the frame's buffer is then
      gone and every other frame's buffer is as before. */
  lemma {:induction false} DeliverAllFragments(r: Receiver, id: nat, n: nat, order: seq<nat>, payload: nat -> seq<byte>,
                                               decodes: seq<byte> -> bool)
    requires id !in r.buffer && n >= 1
    requires |order| == n && Distinct(order)
    requires forall j :: 0 <= j < n ==> order[j] < n
    requires forall i :: 0 <= i < n ==> i in order
    ensures var res := Run(r, Fragments(id, n, order, payload), decodes);
      && id !in res.0.buffer
      && res.1 == (if FullFrame(n, payload) != [] && decodes(FullFrame(n, payload)) then [FullFrame(n, payload)] else [])
      && (forall x :: x != id ==> (x in res.0.buffer <==> x in r.buffer))
      && (forall x :: x != id && x in r.buffer ==> res.0.buffer[x] == r.buffer[x])
      && res.0.totalPacketsReceived == r.totalPacketsReceived + n
      && res.0.totalFramesReceived == r.totalFramesReceived + |res.1|
  {
    PartialDelivery(r, id, n, order, payload, decodes, n - 1);
    FinalStep(r, id, n, order, payload, decodes);
  }
}

=== FILE: values.dfy ===
/** Dynamically typed values: configuration entries, statistics dictionary
    entries and the positional arguments of published events. */
module Values {
  import Bytes
  import ParamsPacket

  datatype Value =
    | VNone
    | VBool(b: bool)
    | VStr(s: string)
    | VInt(i: int)
    | VReal(r: real)
    | VList(items: seq<Value>)
    | VFrame(data: seq<Bytes.byte>)
    | VStream(stream: ParamsPacket.StreamParams)
    | VClients(clients: seq<ParamsPacket.ClientInfo>)
}

=== FILE: wrappers.dfy ===
/** Option and Result, used wherever the modelled code returns `None`
    or raises an exception that its caller catches. */
module Wrappers {

  datatype Option<+T> = None | Some(value: T) {
    function GetOr(default: T): T {
      match this
      case Some(v) => v
      case None => default
    }
  }

  datatype Result<+R, +E> = Success(value: R) | Failure(error: E) {
    function ToOption(): Option<R> {
      match this
      case Success(v) => Some(v)
      case Failure(_) => None
    }
  }
}
